=== FILE: README.md ===
# Kernel image workflows — a Dafny model

The repository builds a container image for a notebook kernel and, in its
larger variant, publishes that image to a managed notebook domain. Two
controller classes each run a fixed list of stages in order:

- `KernelBuildWorkflow` (`src/workflow/build.py`) has one stage, `build`. It
  submits a container build with environment overrides and an idempotency
  token, then polls the build until it ends.
- `KernelCreationWorkflow` (`src/workflow/lambda.py`) has five stages:
  `build`, `create_image`, `create_image_ver`, `config_app_image` and
  `update_domain`. After the build it registers the image and creates an
  image version. It then stamps that version into the matching custom-image
  descriptor, upserts the app-image configuration and updates the domain.

Both classes keep the same bookkeeping: one result slot per stage, all
starting unset, and an index naming the stage about to run. `update_and_next`
is the only way that state moves. Each stage's poll loop uses `_handle_wait`
to decide between giving up, sleeping 15 seconds and checking again at once.

The project has one module per concern:

- `Workflow` (`workflow.dfy`): the stage state machine as one generic engine
  over a stage type and a payload type. It covers `__init__`, `_init_results`,
  `next`, `update_and_next`, `current` and `complete`.
- `Polling` (`polling.dfy`): `_handle_wait` and the poll-until-terminal loop.
  Remote answers and elapsed times are a finite sequence of checks, given as
  input. This module also holds the ways a run can stop, and the timeout
  message.
- `Remote` (`remote.dfy`): the status records the services return and how
  each loop classifies them.
- `Budget` (`budget.dfy`): the fraction guard, truncated budgets and the
  100-second idempotency token.
- `KernelBuild` (`kernel_build.dfy`): the build-only class.
- `KernelCreation` (`kernel_creation.dfy`): the build-then-publish class.

Remote services, the clock and the remaining-time callback are inputs. A run
returns its outcome and the workflow state it leaves: finished, raised with
a fault, or still polling when the supplied answers run out.

Three facts about the two files shape the budgets and the timeout path:

- `build.py` floors the build timeout at 900 s. `lambda.py` has no floor
  (`KernelCreation.NoBuildFloor`).
- `lambda.py` caps the publish timeout at 600 s. The cap is reached only when
  nine tenths of the remaining seconds is at least 600.
- On timeout, `lambda.py` does not record a failure payload. The timeout
  branch of its `_handle_wait` names an undefined variable (see Findings).

The five-stage run is also given as a reference definition, `ExpectedRun`.
It folds the stages in order: each loop's end over its own supplied answers
is concluded in its stage, and the first loop that does not succeed ends the
run. The driver methods are proved equal to it.

## Model

| member | source | states |
|---|---|---|
| Workflow.InitResults | src/workflow/lambda.py:260-266 | The result map has exactly the stage names as keys, and every slot is unset. |
| Workflow.Init | src/workflow/lambda.py:26-30 | A new workflow has the given stage list, index 0 and only unset slots. For a duplicate-free list it satisfies the state invariant: keys are the stage names, and a slot is set exactly when the index has passed it. |
| Workflow.InitHoldsEveryStage | src/workflow/lambda.py:26-30 | In a new workflow every listed stage has an unset slot, and the current position is the first stage. |
| Workflow.Next | src/workflow/lambda.py:36-37 | Advancing moves the index one stage forward and keeps the stage list and every slot. The position after it is the following stage, or the end after the last stage. |
| Workflow.Current | src/workflow/lambda.py:47-52 | The current position names a stage exactly when the index is below the number of stages, and that stage is the one at the index. |
| Workflow.Complete | src/workflow/lambda.py:54-55 | The workflow is complete exactly when the index has reached or passed the number of stages. |
| Workflow.UpdateAndNext | src/workflow/lambda.py:39-45 | Once complete, the call changes nothing. Otherwise the payload lands under the current stage, the index grows by exactly one, and every other slot keeps its value. The invariant is preserved and no key is added or removed. |
| Workflow.UpdateAndNextSlot | src/workflow/lambda.py:39-45 | In a valid state one call sets exactly the slot at the index, stops the index at the end, and leaves every other stage's slot unchanged. |
| Workflow.DriveValid | src/workflow/lambda.py:39-45 | Any number of `update_and_next` calls keep the state valid over the same stage list. |
| Workflow.DriveIndex | src/workflow/lambda.py:36-45 | After k calls the index has advanced by k, stopping at the number of stages. |
| Workflow.DriveSlot | src/workflow/lambda.py:39-45 | After a series of calls, stages already passed keep their results, the next stages receive the payloads in order, and the stages beyond stay unset. |
| Workflow.CompletesAfterEveryStage | src/workflow/lambda.py:39-55 | After exactly as many calls as there are stages, a new workflow is complete and stage j holds the j-th payload. One more call changes nothing. |
| Workflow.IncompleteBeforeEveryStage | src/workflow/lambda.py:47-55 | With fewer calls than stages, the workflow is not complete and stands at the stage after the last one recorded. |
| Workflow.DriveIdleWhenComplete | src/workflow/lambda.py:39-42 | Once complete, any series of further calls leaves the state unchanged. |
| Workflow.RecordedPrefix | src/workflow/lambda.py:39-45 | In a valid state the set slots form a prefix: a later set slot implies every earlier one is set. |
| Polling.HandleWait | src/workflow/lambda.py:98-106 | The loop gives up exactly when the elapsed time exceeds the timeout. It sleeps exactly when a full 15-second interval still ends before the timeout, and otherwise checks again without sleeping. |
| Polling.SleepStaysWithinDeadline | src/workflow/build.py:118-119 | A sleep never carries the elapsed time past the timeout, so the next decision does not give up even one second later. |
| Polling.Poll | src/workflow/lambda.py:82-96 | The loop stops at the first check whose description is terminal or whose elapsed time exceeds the timeout, and at no earlier check. Success and failure carry that check's description with the matching verdict. A timeout carries an elapsed time past the timeout. If every interval fits, it sleeps once per non-final check; with a timeout of at most 15 s it never sleeps. `PollSleepCount` gives the exact number of sleeps for any elapsed times. |
| Polling.PollSleepCount | src/workflow/lambda.py:96-106 | The number of sleeps equals the number of checks, among those before the last one read, whose elapsed time plus 15 s is still below the timeout. The last check is excluded when it ends the loop, and included when the loop is still polling. |
| Polling.Recording | src/workflow/build.py:99-117 | A success records the success payload of its description, a failure the failure payload of its description, and a timeout the timeout payload, if the path has one. Nothing is recorded exactly when the loop is still polling, or when it timed out on a path that records nothing. |
| Polling.TimeoutMessage | src/workflow/build.py:115 | The message is the fixed lead, then decimal digits, then the fixed advice. The digits have no leading zero except for the timeout 0 itself, and they read back as the timeout. |
| Polling.NatToString | src/workflow/build.py:115 | A natural number prints as a non-empty string of decimal digits with no leading zero, except `0` itself. |
| Polling.DecimalRoundTrip | src/workflow/build.py:115 | Reading back the decimal digits printed for a timeout gives that timeout. |
| Polling.TimeoutMessageNamesTimeout | src/workflow/build.py:115 | Distinct timeouts give distinct timeout messages. |
| Remote.BuildStatusVerdict | src/workflow/build.py:102-108 | A build status is a success exactly when it is `SUCCEEDED` and a failure exactly when it is `FAILED`, `FAULT`, `STOPPED` or `TIMED_OUT`. |
| Remote.BuildVerdict | src/workflow/lambda.py:84-96 | An empty build answer keeps the loop polling; a non-empty one is classified by its status. |
| Remote.ImageVerdict | src/workflow/lambda.py:128-138 | An image is a success exactly when it is `CREATED` and a failure exactly when it is `CREATE_FAILED`, `UPDATE_FAILED`, `DELETE_FAILED` or `DELETING`. |
| Remote.ImageVersionVerdict | src/workflow/lambda.py:150-160 | An image version is a success exactly when it is `CREATED` and a failure exactly when it is `CREATE_FAILED`, `DELETE_FAILED` or `DELETING`. |
| Remote.DomainVerdict | src/workflow/lambda.py:203-217 | A domain is a success exactly when it is `InService` and a failure exactly when it is `Failed`, `Deleting`, `Update_Failed` or `Delete_Failed`. |
| Remote.UpdateFailedEndsOnlyTheImageLoop | src/workflow/lambda.py:131-156 | `UPDATE_FAILED` ends the image loop as a failure, but keeps the image-version loop polling. |
| Budget.Acceptable | src/workflow/lambda.py:59-60 | The guard accepts a fraction exactly when it lies in (0, 1]. |
| Budget.ScaledSeconds | src/workflow/lambda.py:63 | The build share is the largest whole number of seconds not above the fraction of the remaining time, and never more than the remaining whole seconds. |
| Budget.NineTenthsSeconds | src/workflow/lambda.py:64 | The publish share is the largest whole number of seconds not above nine tenths of the remaining time. |
| Budget.Token | src/workflow/lambda.py:72 | The token is a multiple of 100, at or below the submission time, and less than 100 seconds before it. |
| Budget.TokenSharedWithinWindow | src/workflow/build.py:81-83 | Two submissions share a token exactly when they fall into the same 100-second window. |
| Budget.TokenDiffersAcrossWindows | src/workflow/build.py:81-83 | Submissions at least 100 seconds apart get different, increasing tokens. |
| KernelBuild.Name | src/workflow/build.py:28 | The single stage's key is not the end marker. |
| KernelBuild.CurrentName | src/workflow/build.py:47-52 | `current` reports `End` exactly when the workflow is complete, and otherwise the name of the stage at the index. |
| KernelBuild.SummaryOf | src/workflow/build.py:103 | A success record is a summary carrying the build's id, ARN, build number and status. |
| KernelBuild.MessageText | src/workflow/build.py:104-117 | The stored text starts with `Build Id: ` exactly for a failure note. A failure note's text is `Build Id: `, the build id, ` Status: `, then the status, with nothing else. A timeout note's text is the fixed lead, then decimal digits only, then the fixed advice. Those digits have no leading zero except for the timeout 0, and they read back as the timeout. |
| KernelBuild.TimeoutTextIsNoFailure | src/workflow/build.py:106-115 | A timeout message never starts with the `Build Id: ` prefix of a failure message. |
| KernelBuild.FailureMessage | src/workflow/build.py:106 | The failure message is `Build Id: `, the build id, ` Status: ` and the status, in that order and nothing else. |
| KernelBuild.SingleStageLifecycle | src/workflow/build.py:26-55 | The new state has the single `build` slot unset and stands at `build`. One record completes it (`current` reports `End`), and a second record changes nothing. |
| KernelBuild.SetTimeoutBudgets | src/workflow/build.py:57-65 | Fractions outside (0, 1] are refused. Otherwise the timeout is at least 900 s: the truncated share when that share is larger, and 900 s otherwise. |
| KernelBuild.DefaultBudget | src/workflow/build.py:129 | With the default fraction 1.0 the budget is always accepted and equals the larger of 900 and the remaining whole seconds. |
| KernelBuild.FloorOutlastsShortRun | src/workflow/build.py:63 | With less than 900 s remaining, the timeout is 900 s and so exceeds the time the run has. |
| KernelBuild.EnvOverridesInput | src/workflow/build.py:67-77 | One record per override key, in key order, carrying that key and its value, typed `PLAINTEXT`. |
| KernelBuild.EnvOverridesRoundTrip | src/workflow/build.py:67-77 | Reading the override records back gives the original overrides. |
| KernelBuild.Submission | src/workflow/build.py:83-88 | The build request names the configured project, carries overrides that read back to the configured ones, types every override `PLAINTEXT`, and has the token of the submission's 100-second window. |
| KernelBuild.BuildOutcome | src/workflow/build.py:95-117 | The run finishes exactly when the loop succeeds and is still polling exactly when the answers ran out. A failure raises with the failing status, and a timeout raises with the timeout. |
| KernelBuild.PendingPendingSucceeded | src/workflow/build.py:95-121 | Two in-progress answers at 0 s and 15 s, then a success at 30 s, with a timeout above 30 s, give three checks, two sleeps and a finished run. The workflow's only slot holds the success summary. |
| KernelBuild.BuildStage | src/workflow/build.py:95-121 | The outcome and the record are those of the loop's end over the supplied answers. A success records the finishing build's id, ARN, number and status. A failure records the failure note for its status and raises. A timeout records the timeout note and raises. Each ending records exactly once, and the stage completes exactly when something was recorded. |
| KernelBuild.Run | src/workflow/build.py:123-132 | Once the build starts, the outcome is that of the build loop over the supplied answers with timeout max(900, remaining seconds). The state is the fresh state with that loop's record settled in. The run sends the project, overrides and token, and is finished exactly when the slot holds a success summary. A failure or timeout leaves a non-summary record. A timeout is raised with max(900, remaining seconds). An empty submission answer raises before anything is recorded. |
| KernelCreation.Name | src/workflow/lambda.py:23-28 | No stage name equals the end marker. |
| KernelCreation.InitialState | src/workflow/lambda.py:26-30 | A new workflow has all five stage keys, all unset, at index 0, with `current` reporting `build`. |
| KernelCreation.CurrentName | src/workflow/lambda.py:47-52 | `current` reports `End` exactly when the workflow is complete, and otherwise the name of the stage at the index. |
| KernelCreation.FiveRecordsComplete | src/workflow/lambda.py:39-55 | Five records complete the workflow: `current` reports `End`, each stage holds its record, and a sixth record changes nothing. |
| KernelCreation.FewerRecordsIncomplete | src/workflow/lambda.py:47-55 | With fewer than five records, `current` names the next stage, not `End`. |
| KernelCreation.SetTimeoutBudgets | src/workflow/lambda.py:57-66 | Fractions outside (0, 1] are refused. The build timeout is the truncated share, with no floor. The publish timeout is at most 600 s, equals 600 s exactly when nine tenths of the remaining time reaches it, and otherwise is nine tenths of the remaining seconds, truncated. |
| KernelCreation.NoBuildFloor | src/workflow/lambda.py:63 | With less than 900 s remaining and the full fraction, the build timeout is the remaining whole seconds, below 900. |
| KernelCreation.LongRunBudget | src/workflow/lambda.py:57-66 | With 10,000,000 ms left and half the time for the build, the budgets are 5000 s for the build and 600 s for publishing. |
| KernelCreation.Matches | src/workflow/lambda.py:189 | A descriptor is selected exactly when both its image name and its app-image configuration name match; a mismatch on either one excludes it. |
| KernelCreation.UpdateContainerConfigVer | src/workflow/lambda.py:186-190 | Descriptors matching on both image name and app-image configuration name get the new version. All others stay as they were, and the list keeps its length. When nothing matches, the list is unchanged. |
| KernelCreation.StampIdempotent | src/workflow/lambda.py:186-190 | Stamping twice with the same version is the same as stamping once. |
| KernelCreation.StampedExactlyTheMatches | src/workflow/lambda.py:186-190 | A descriptor not already at the version carries it after stamping exactly when it matches on both names. |
| KernelCreation.Conclude | src/workflow/lambda.py:82-106 | The loop's end decides the result. A success or failure records the description, and a failure raises with its stage and status. A timeout records the timeout notice when timeouts are recorded, and otherwise raises a NameError with nothing recorded. |
| KernelCreation.PollStage | src/workflow/lambda.py:124-138 | A poll-loop stage records at most once, in its own slot only, and moves the index past itself exactly when it records. A failure raises with this stage and the recorded status. When timeouts are recorded, a timeout raises with this stage and its timeout; otherwise it raises a NameError and records nothing. The state stays consistent. |
| KernelCreation.BuildTimeoutReachable | src/workflow/lambda.py:98-102 | The build loop's timeout branch is reachable: an empty first answer read after a zero-second budget gives up. |
| KernelCreation.RunWith | src/workflow/lambda.py:235-258 | The run equals `ExpectedRun` over the supplied answers. The build loop runs on the build answers with the build timeout, and each publish loop runs on its own answers with the publish timeout. The first loop that does not succeed decides the outcome and its own slot. A bad fraction raises before any remote call and leaves the fresh state. Otherwise the build gets the token of its window, and an empty submission answer raises with nothing recorded. A failure or deadline abort names the last recorded stage, and every earlier stage succeeded. A NameError, or a loop still polling, leaves only successes recorded. A deadline uses the build timeout in the build stage and the publish timeout afterwards. When the domain update is reached, it carries the stamped version. |
| KernelCreation.BuildStage | src/workflow/lambda.py:68-96 | The result equals `ExpectedBuild`. The build loop's end over the supplied build answers, with the build timeout, is concluded from the fresh state. Any end other than success stops the run with that conclusion. The publish steps run only after a success. A timeout stops the run in the build stage. |
| KernelCreation.ImageStage | src/workflow/lambda.py:124-138 | The result equals `ExpectedImage`. The image loop's end over the supplied image answers, with the publish timeout, is concluded in the second stage. Any end other than success stops the run with that conclusion. A success goes on to the version stage. A failure or timeout records in that stage. |
| KernelCreation.VersionStage | src/workflow/lambda.py:140-162 | The result equals `ExpectedVersion`. The version loop's end over the supplied version answers is concluded in the third stage. Any end other than success stops the run. A success sends on the configured list with the created version stamped in. |
| KernelCreation.DomainStage | src/workflow/lambda.py:164-217 | The result equals `ExpectedDomain`. The domain loop's end over the supplied domain answers is concluded in the fifth stage and gives the outcome. Either upsert branch records the configuration answer as a success in the fourth stage. The stamped list goes to the domain update, the created version stays recorded, and the domain loop ends the run in the fifth stage. |
| KernelCreation.Run | src/workflow/lambda.py:235-258 | The result equals `ExpectedRun` with timeouts recorded. In addition: the state stays consistent, later stages stay unset, and no NameError occurs. A build timeout raises with the build timeout and leaves the timeout notice in the build slot. |
| KernelCreation.TwoRecordsFrom | src/workflow/lambda.py:39-45 | From a valid state at the first stage with every slot unset, two records fill `build` and `create_image` in that order, the index stands at 2, and the other three slots stay unset. |
| KernelCreation.TwoRecordsFromStart | src/workflow/lambda.py:26-45 | The same holds from the fresh five-stage workflow. |
| KernelCreation.BuildSuccessMovesOn | src/workflow/lambda.py:84-96 | A build loop whose first answer is a successful build goes on to the image stage, with that build recorded in the build slot. |
| KernelCreation.ImageFailureRaises | src/workflow/lambda.py:128-138 | An image loop whose first answer is `CREATE_FAILED` records that description and raises at the image stage with that status. |
| KernelCreation.ImageFailureStopsTheRun | src/workflow/lambda.py:235-258 | A successful build followed by an image reported as `CREATE_FAILED` raises at the image stage with that status. It leaves the build and image records in place, stands at index 2, leaves the three later stages unset, and never reaches the domain update. |
| KernelCreation.RunAsWritten | src/workflow/lambda.py:98-102 | The result equals `ExpectedRun` without recorded timeouts, which is the code as it stands. In addition: a timeout never raises as a deadline. A build timeout raises a NameError, leaves the build slot unset, and keeps later stages unset. |

## Left out

- Remote calls (`start_build`, `batch_get_builds`, `describe_image`, `create_image_version`, `update_domain` and the others) are inputs: the submission answer and the sequence of answers each poll loop would see.
- The create/update choice of `_create_sagemaker_image` and `_create_app_config`, including their `except` fallbacks, is not modelled. It makes remote calls only, and both branches of the configuration upsert record the single answer the model takes as input.
- A remote call that raises is not modelled. This covers `start_build` (src/workflow/lambda.py:75, src/workflow/build.py:86), `describe_image` (src/workflow/lambda.py:126), `create_image_version` (src/workflow/lambda.py:142), `update_domain` (src/workflow/lambda.py:197), the account lookup inside `ecr_uri_for_image`, and `create_app_image_config` in the `except` branch (src/workflow/lambda.py:181). In the source such an exception ends the run with the current stage's slot still unset. The model's `Fault` type has no case for it: every modelled call returns an answer.
- `ecr_uri_for_image` is not modelled; it only reads the account and region to build the image URI.
- `lambda_handler`, `cfnresponse`, JSON encoding and `datetime_to_str` are outside the model. They report the results to the invoking framework.
- The clock and `sleep` are not modelled: elapsed seconds are whole numbers supplied with each check. The three publish loops share one start time in the source. The model over-approximates this: each loop's elapsed values are free inputs, so answers that no shared clock could produce are also covered.
- Floating-point budgets are exact ratios `num / den` of a whole number of milliseconds. Rounding of the float computation is not modelled.
- The client-injection expressions in `__init__` (`sm if not sm else boto3.client(...)`) select clients and have no effect on the state machine.
- Python errors from malformed answers (a missing key, an empty `builds` list) are not modelled; answers are well-formed records.
- Budget.Token: the source passes the token as a decimal string; the model keeps the integer.
- KernelBuild.BuildStage: the failure and timeout messages are recorded as structured notes. `MessageText` and `TimeoutMessage` give their text.
- KernelCreation.RunWith: the text of the raised exceptions is not modelled. A fault carries its stage and status or timeout instead.
- KernelCreation.RunWith: a loop whose supplied answers run out is reported as still polling. The source would keep polling.

## Findings

| source | as written | input that shows it | evidently intended | confidence | as-written member | corrected member |
|---|---|---|---|---|---|---|
| src/workflow/lambda.py:101 | On timeout, `_handle_wait` calls `update_and_next(info)`, but `info` is not defined in that method or at module level. The call raises a NameError before anything is recorded, so the timed-out stage stays unset and the timeout message is never raised. | Fraction 1.0, less than one second remaining, a started build, and a first build answer that is empty and read one second in (`KernelCreation.BuildTimeoutReachable`). | Record the timeout message under the current stage and raise it, as `src/workflow/build.py:114-117` does. | not executed | KernelCreation.RunAsWritten | KernelCreation.Run |

=== FILE: budget.dfy ===
/**
 Timeout budgeting and the build submission token, shared by both workflows.

 The source computes budgets in floating point (`available_time_ms / 1000 *
 build_time_budget`) and truncates with `int`. Here the remaining time is a
 whole number of milliseconds and the fraction is an exact ratio `num / den`
 with a positive denominator, so the truncation is a floor of non-negative
 rationals.
 */
module Budget {

  /** The build-time fraction `num / den`. */
  datatype Fraction = Fraction(num: int, den: int)

  /** The default build fraction `1.0`. */
  const FullBudget: Fraction := Fraction(1, 1)

  /** The fraction as a real number. */
  function RealOf(f: Fraction): (q: real)
    requires f.den > 0
  {
    f.num as real / f.den as real
  }

  /**
   The guard of `_set_timeout_budgets`: a fraction greater than one or not
   greater than zero is refused, so exactly the fractions in the half-open
   interval (0, 1] pass.
   */
  predicate Acceptable(f: Fraction): (ok: bool)
    requires f.den > 0
    ensures ok <==> 0.0 < RealOf(f) <= 1.0
  {
    UnitIntervalByCrossMultiplying(f);
    !(f.num > f.den || f.num <= 0)
  }

  /** Comparing the fraction with 0 and 1 is comparing its numerator with 0 and its denominator. */
  lemma UnitIntervalByCrossMultiplying(f: Fraction)
    requires f.den > 0
    ensures 0.0 < RealOf(f) <==> f.num > 0
    ensures RealOf(f) <= 1.0 <==> f.num <= f.den
  {
    var d := f.den as real;
    var n := f.num as real;
    var q := RealOf(f);
    assert q * d == n;
    PositiveFactor(q, d);
    assert 0.0 < q <==> 0.0 < n;
    assert (q - 1.0) * d == n - d;
    PositiveFactor(q - 1.0, d);
    assert q > 1.0 <==> n > d;
  }

  /** A product with a positive factor has the sign of the other factor. */
  lemma PositiveFactor(x: real, d: real)
    requires d > 0.0
    ensures x > 0.0 <==> x * d > 0.0
  {
  }

  /** Floor division of naturals: the quotient is the largest multiple of the divisor not above the dividend. */
  function FloorDiv(a: nat, b: nat): (q: nat)
    requires b > 0
    ensures q * b <= a < (q + 1) * b
  {
    a / b
  }

  /** A positive factor keeps the sign of the other one. */
  lemma ProductSign(x: int, d: int)
    requires d > 0
    ensures x > 0 ==> x * d > 0
    ensures x <= 0 ==> x * d <= 0
  {
  }

  /** Multiplying by a non-negative number preserves order. */
  lemma ScaleMonotone(m: nat, x: int, y: int)
    requires x <= y
    ensures m * x <= m * y
  {
    ProductSignNat(m, y - x);
  }

  /** A product of naturals is never negative. */
  lemma ProductSignNat(m: nat, x: nat)
    ensures m * x >= 0
  {
  }

  /** A share no larger than the whole: `s * 1000 * den <= ms * den` gives `s <= ms / 1000`. */
  lemma ShareAtMostWhole(s: nat, ms: nat, den: nat)
    requires den > 0
    requires s * (1000 * den) <= ms * den
    ensures s <= ms / 1000
  {
    assert s * (1000 * den) - ms * den == (s * 1000 - ms) * den;
    ProductSign(s * 1000 - ms, den);
  }

  /**
   `int((available_time_ms / 1000) * fraction)`: the whole seconds in the
   given share of the remaining time, truncated.
   */
  function ScaledSeconds(ms: nat, f: Fraction): (s: nat)
    requires 0 < f.num <= f.den
    ensures s * (1000 * f.den) <= ms * f.num < (s + 1) * (1000 * f.den)
    ensures s <= ms / 1000
  {
    ProductSignNat(ms, f.num);
    var s := FloorDiv(ms * f.num, 1000 * f.den);
    ScaleMonotone(ms, f.num, f.den);
    ShareAtMostWhole(s, ms, f.den);
    s
  }

  /** `int((available_time_ms / 1000) * 0.9)`: nine tenths of the remaining seconds, truncated. */
  function NineTenthsSeconds(ms: nat): (s: nat)
    ensures s * 10000 <= ms * 9 < (s + 1) * 10000
  {
    (ms * 9) / 10000
  }

  /** Width in seconds of the window inside which build submissions share a token. */
  const TokenWindow: nat := 100

  /**
   The idempotency token `int(timestamp / 100) * 100`: the start of the
   100-second window the submission time falls into.
   */
  function Token(timestamp: nat): (t: nat)
    ensures t % TokenWindow == 0
    ensures t <= timestamp < t + TokenWindow
  {
    (timestamp / TokenWindow) * TokenWindow
  }

  /** Two submissions get the same token exactly when they fall into the same window. */
  lemma TokenSharedWithinWindow(a: nat, b: nat)
    ensures Token(a) == Token(b) <==> a / TokenWindow == b / TokenWindow
  {
  }

  /** Submissions at least one window apart never share a token. */
  lemma TokenDiffersAcrossWindows(a: nat, b: nat)
    requires a + TokenWindow <= b
    ensures Token(a) < Token(b)
  {
  }
}

=== FILE: kernel_build.dfy ===
/**
 `KernelBuildWorkflow`: the build-only variant. Its single stage submits a
 container build with the caller's environment overrides and an idempotency
 token, then polls the build until it succeeds, fails or runs out of time.
 */
module KernelBuild {
  import opened Workflow
  import opened Polling
  import opened Remote
  import opened Budget

  /** The single stage of this variant. */
  datatype Stage = Build

  /** The stage's key in the source's `results` dictionary. */
  function Name(s: Stage): (n: string)
    ensures n != EndName
  {
    "build"
  }

  /** The source's `current()`: the current stage's name, or the end marker. */
  function CurrentName(w: Workflow<Stage, Payload>): (n: string)
    ensures n == EndName <==> Complete(w)
    ensures !Complete(w) ==> n == Name(w.stages[w.idx])
  {
    match Current(w)
    case At(s) => Name(s)
    case End => EndName
  }

  /** The stage list of this variant. */
  const Stages: seq<Stage> := [Build]

  /** The build timeout never drops below this many seconds. */
  const BuildFloor: nat := 900

  /** The type tag of every environment override sent to the build service. */
  const PlainText: string := "PLAINTEXT"

  /**
   What the build stage records: a summary of a successful build, or one of
   the two messages, kept as the values `MessageText` renders.
   */
  datatype Payload =
    | Summary(id: string, arn: string, num: int, status: string)
    | FailureNote(buildId: string, status: string)
    | TimeoutNote(timeout: nat)

  /** One environment-variable override as the build service expects it. */
  datatype EnvVar = EnvVar(name: string, value: string, kind: string)

  /** The arguments of the `start_build` call. */
  datatype StartBuild = StartBuild(projectName: string, environmentVariablesOverride: seq<EnvVar>, idempotencyToken: nat)

  /** The invocation configuration: the build project and the overrides, a dictionary kept in key order. */
  datatype Config = Config(cbProject: string, envOverrides: seq<(string, string)>)

  /**
   What the outside world supplies: the remaining execution time, the
   submission time in seconds, the build id `start_build` returned (None for
   an empty answer), and the successive `batch_get_builds` answers with the
   elapsed seconds at each wait decision.
   */
  datatype Inputs = Inputs(remainingMs: nat, timestamp: nat, started: Option<string>, checks: seq<Check<Option<BuildInfo>>>)

  /** How the run ended, the workflow state it left, and the build request it sent, if any. */
  datatype Report = Report(outcome: Outcome<Stage>, workflow: Workflow<Stage, Payload>, request: Option<StartBuild>)

  /** The stage list satisfies the engine's requirements. */
  lemma StagesWellFormed()
    ensures WellFormed(Stages)
  {
  }

  /** Construction leaves the single stage unset at index 0; one record completes the workflow, later ones change nothing. */
  lemma SingleStageLifecycle(info: Payload, more: Payload)
    ensures Init<Stage, Payload>(Stages).results == map[Build := None] && Init<Stage, Payload>(Stages).idx == 0
    ensures CurrentName(Init<Stage, Payload>(Stages)) == "build"
    ensures CurrentName(UpdateAndNext(Init<Stage, Payload>(Stages), info)) == EndName
    ensures UpdateAndNext(Init<Stage, Payload>(Stages), info).results == map[Build := Some(info)]
    ensures UpdateAndNext(UpdateAndNext(Init<Stage, Payload>(Stages), info), more) == UpdateAndNext(Init<Stage, Payload>(Stages), info)
  {
    var w := Init<Stage, Payload>(Stages);
    assert w.results.Keys == {Build};
  }

  /**
   `_set_timeout_budgets` of this variant: refuse a fraction outside (0, 1];
   otherwise the build timeout is the truncated share of the remaining
   seconds, raised to 900 when it falls short.
   */
  function SetTimeoutBudgets(ms: nat, f: Fraction): (r: Result<nat, Fault<Stage>>)
    requires f.den > 0
    ensures r.Err? <==> !(0.0 < RealOf(f) <= 1.0)
    ensures r.Err? ==> r.error == BudgetRejected
    ensures r.Ok? ==> r.value >= BuildFloor
    ensures r.Ok? && r.value > BuildFloor ==>
      r.value * (1000 * f.den) <= ms * f.num < (r.value + 1) * (1000 * f.den)
    ensures r.Ok? && r.value == BuildFloor ==> ms * f.num < (BuildFloor + 1) * (1000 * f.den)
  {
    if !Acceptable(f) then Err(BudgetRejected)
    else
      var share := ScaledSeconds(ms, f);
      Ok(if share > BuildFloor then share else BuildFloor)
  }

  /** `run` always uses the default fraction 1.0, which the guard accepts: the timeout is max(900, remaining seconds). */
  lemma DefaultBudget(ms: nat)
    ensures SetTimeoutBudgets(ms, FullBudget).Ok?
    ensures SetTimeoutBudgets(ms, FullBudget).value == if ms / 1000 > BuildFloor then ms / 1000 else BuildFloor
  {
    var s := ScaledSeconds(ms, FullBudget);
    assert s * 1000 <= ms < (s + 1) * 1000;
  }

  /**
   The floor applies however little time remains, so with less than 900
   seconds left the build timeout exceeds the time the run actually has.
   */
  lemma FloorOutlastsShortRun(ms: nat)
    requires ms < BuildFloor * 1000
    ensures SetTimeoutBudgets(ms, FullBudget) == Ok(BuildFloor)
    ensures SetTimeoutBudgets(ms, FullBudget).value * 1000 > ms
  {
    DefaultBudget(ms);
  }

  /** `_env_overrides_input`: one PLAINTEXT record per key, in key order, named by the key and holding its value. */
  function EnvOverridesInput(env: seq<(string, string)>): (r: seq<EnvVar>)
    ensures |r| == |env|
    ensures forall i :: 0 <= i < |env| ==> r[i].name == env[i].0 && r[i].value == env[i].1 && r[i].kind == PlainText
    decreases |env|
  {
    if |env| == 0 then []
    else [EnvVar(env[0].0, env[0].1, PlainText)] + EnvOverridesInput(env[1..])
  }

  /** The dictionary a list of override records describes, in record order. */
  function EnvOverridesOf(vars: seq<EnvVar>): (env: seq<(string, string)>)
    ensures |env| == |vars|
    ensures forall i :: 0 <= i < |vars| ==> env[i] == (vars[i].name, vars[i].value)
    decreases |vars|
  {
    if |vars| == 0 then []
    else [(vars[0].name, vars[0].value)] + EnvOverridesOf(vars[1..])
  }

  /** The override records lose nothing: reading them back yields the original dictionary. */
  lemma EnvOverridesRoundTrip(env: seq<(string, string)>)
    ensures EnvOverridesOf(EnvOverridesInput(env)) == env
  {
    var back := EnvOverridesOf(EnvOverridesInput(env));
    assert forall i :: 0 <= i < |env| ==> back[i] == env[i];
  }

  /** What a successful build records: its id, ARN, number and status. */
  function SummaryOf(info: Option<BuildInfo>): (p: Payload)
    ensures p.Summary?
    ensures info.Some? ==>
      p.id == info.value.id && p.arn == info.value.arn && p.num == info.value.buildNumber && p.status == info.value.buildStatus
  {
    match info
    case Some(b) => Summary(b.id, b.arn, b.buildNumber, b.buildStatus)
    case None => Summary("", "", 0, "")  // never recorded: an empty answer does not end the loop
  }

  /** The message a failed build records and raises. */
  function FailureMessage(buildId: string, status: string): (m: string)
    ensures |m| == 19 + |buildId| + |status|
    ensures m[..10] == "Build Id: " && m[10..10 + |buildId|] == buildId
    ensures m[10 + |buildId|..19 + |buildId|] == " Status: " && m[19 + |buildId|..] == status
  {
    "Build Id: " + buildId + " Status: " + status
  }

  /** The text of a recorded message, as the source stores it in `results`. */
  function MessageText(p: Payload): (m: string)
    requires !p.Summary?
    ensures |m| >= 10 && (m[..10] == "Build Id: " <==> p.FailureNote?)
    ensures p.FailureNote? ==>
      && |m| == 19 + |p.buildId| + |p.status|
      && m[10..10 + |p.buildId|] == p.buildId
      && m[10 + |p.buildId|..19 + |p.buildId|] == " Status: "
      && m[|m| - |p.status|..] == p.status
    ensures p.TimeoutNote? ==>
      && |m| > |TimeoutLead| + |TimeoutAdvice|
      && m[..|TimeoutLead|] == TimeoutLead
      && m[|m| - |TimeoutAdvice|..] == TimeoutAdvice
      && (forall i :: |TimeoutLead| <= i < |m| - |TimeoutAdvice| ==> '0' <= m[i] <= '9')
      && (m[|TimeoutLead|] == '0' ==> p.timeout == 0 && |m| == |TimeoutLead| + 1 + |TimeoutAdvice|)
      && DecimalValue(m[|TimeoutLead|..|m| - |TimeoutAdvice|]) == p.timeout
  {
    match p
    case FailureNote(buildId, status) => FailureMessage(buildId, status)
    case TimeoutNote(timeout) =>
      TimeoutTextIsNoFailure(timeout);
      TimeoutMessage(timeout)
  }

  /** A timeout message never starts like a failure message. */
  lemma TimeoutTextIsNoFailure(timeout: nat)
    ensures |TimeoutMessage(timeout)| >= 10 && TimeoutMessage(timeout)[..10] != "Build Id: "
  {
    var m := TimeoutMessage(timeout);
    assert m[..10][6] == TimeoutLead[6] == 'e';
  }

  /** What a failed build records: the failure message for its status. */
  function FailurePayload(buildId: string): (f: Option<BuildInfo> -> Payload) {
    (info: Option<BuildInfo>) => FailureNote(buildId, StatusOf(info))
  }

  /**
   The poll loop of `_create_kernel_image` together with `_handle_wait`:
   success records the summary and ends the run; a failure status records
   and raises the failure message; a timeout records and raises the timeout
   message. Exactly one record is made whenever the loop ends.
   */
  method BuildStage(w: Workflow<Stage, Payload>, buildId: string, checks: seq<Check<Option<BuildInfo>>>, timeout: nat)
    returns (r: StageResult<Stage, Payload>)
    requires Valid(w) && w.stages == Stages && w.idx == 0
    ensures r.outcome == BuildOutcome(Poll(BuildVerdict, checks, timeout).end, timeout)
    ensures r.recorded == Recording(Poll(BuildVerdict, checks, timeout).end, SummaryOf, FailurePayload(buildId), Some(TimeoutNote(timeout)))
    ensures r.recorded.None? <==> r.outcome.StillPolling?
    ensures r.workflow == Settle(w, r.recorded)
    ensures Valid(r.workflow) && r.workflow.stages == Stages && Build in r.workflow.results
    ensures r.recorded.None? ==> r.workflow == w
    ensures r.recorded.Some? ==> Complete(r.workflow) && r.workflow.results[Build] == r.recorded
    ensures r.outcome.Finished? <==> Poll(BuildVerdict, checks, timeout).end.Success?
    ensures r.outcome.StillPolling? <==> Poll(BuildVerdict, checks, timeout).end.Exhausted?
    ensures r.outcome.Finished? ==>
      var b := Poll(BuildVerdict, checks, timeout).end.info.value;
      && Poll(BuildVerdict, checks, timeout).end.info.Some?
      && r.recorded == Some(Summary(b.id, b.arn, b.buildNumber, b.buildStatus))
      && b.buildStatus == BuildSucceeded
    ensures r.outcome.Aborted? ==> r.outcome.fault.TerminalStatus? || r.outcome.fault.DeadlineExceeded?
    ensures r.outcome.Aborted? && r.outcome.fault.TerminalStatus? ==>
      && Poll(BuildVerdict, checks, timeout).end.Failure?
      && r.outcome.fault.status in BuildFailures
      && r.recorded == Some(FailureNote(buildId, r.outcome.fault.status))
    ensures r.outcome.Aborted? && r.outcome.fault.DeadlineExceeded? ==>
      && Poll(BuildVerdict, checks, timeout).end.Timeout?
      && r.outcome.fault.timeout == timeout
      && r.recorded == Some(TimeoutNote(timeout))
  {
    var run := Poll(BuildVerdict, checks, timeout);
    var recorded := Recording(run.end, SummaryOf, FailurePayload(buildId), Some(TimeoutNote(timeout)));
    r := StageResult(Settle(w, recorded), BuildOutcome(run.end, timeout), recorded);
    assert Stages[0] == Build;
    if recorded.Some? {
      UpdateAndNextSlot(w, recorded.value);
    }
  }

  /** How the build loop's end surfaces to the caller: finished, raised, or still polling. */
  function BuildOutcome(end: PollEnd<Option<BuildInfo>>, timeout: nat): (o: Outcome<Stage>)
    ensures o.Finished? <==> end.Success?
    ensures o.StillPolling? <==> end.Exhausted?
    ensures end.Failure? ==> o == Aborted(TerminalStatus(Build, StatusOf(end.info)))
    ensures end.Timeout? ==> o == Aborted(DeadlineExceeded(Build, timeout))
  {
    match end
    case Success(_) => Finished
    case Failure(info) => Aborted(TerminalStatus(Build, StatusOf(info)))
    case Timeout(_) => Aborted(DeadlineExceeded(Build, timeout))
    case Exhausted => StillPolling
  }

  /** The status of a build record; an empty answer has none. */
  function StatusOf(info: Option<BuildInfo>): (status: string) {
    if info.Some? then info.value.buildStatus else ""
  }

  /**
   The `start_build` arguments: the project, the overrides converted by
   `_env_overrides_input`, and the token of the submission's 100-second window.
   */
  function Submission(config: Config, timestamp: nat): (q: StartBuild)
    ensures q.projectName == config.cbProject
    ensures EnvOverridesOf(q.environmentVariablesOverride) == config.envOverrides
    ensures forall i :: 0 <= i < |q.environmentVariablesOverride| ==> q.environmentVariablesOverride[i].kind == PlainText
    ensures q.idempotencyToken % TokenWindow == 0
    ensures q.idempotencyToken <= timestamp < q.idempotencyToken + TokenWindow
  {
    EnvOverridesRoundTrip(config.envOverrides);
    StartBuild(config.cbProject, EnvOverridesInput(config.envOverrides), Token(timestamp))
  }

  /**
   A build that is in progress twice and then succeeds, with every interval
   fitting the timeout: the loop checks three times, sleeps twice, and
   records the successful build's summary.
   */
  lemma PendingPendingSucceeded(b: BuildInfo, timeout: nat)
    requires b.buildStatus == BuildSucceeded
    requires 30 < timeout
    ensures var checks := [Check(Some(b.(buildStatus := "IN_PROGRESS")), 0), Check(Some(b.(buildStatus := "IN_PROGRESS")), 15), Check(Some(b), 30)];
      var run := Poll(BuildVerdict, checks, timeout);
      var recorded := Recording(run.end, SummaryOf, FailurePayload(b.id), Some(TimeoutNote(timeout)));
      && run == PollRun(Success(Some(b)), 3, 2)
      && BuildOutcome(run.end, timeout) == Finished
      && recorded == Some(Summary(b.id, b.arn, b.buildNumber, BuildSucceeded))
      && Settle(Init<Stage, Payload>(Stages), recorded).results == map[Build := recorded]
  {
    var checks := [Check(Some(b.(buildStatus := "IN_PROGRESS")), 0), Check(Some(b.(buildStatus := "IN_PROGRESS")), 15), Check(Some(b), 30)];
    assert checks[1..][1..] == [Check(Some(b), 30)];
    SingleStageLifecycle(Summary(b.id, b.arn, b.buildNumber, BuildSucceeded), Summary(b.id, b.arn, b.buildNumber, BuildSucceeded));
  }

  /**
   `run`: budget the build with the default fraction, submit the build with
   the overrides and the token of the current 100-second window, then poll
   it. An empty submission answer raises before anything is recorded.
   */
  method Run(config: Config, inputs: Inputs) returns (r: Report)
    ensures Valid(r.workflow) && r.workflow.stages == Stages && Build in r.workflow.results
    ensures r.request == Some(Submission(config, inputs.timestamp))
    ensures inputs.started.Some? ==>
      var timeout := SetTimeoutBudgets(inputs.remainingMs, FullBudget).value;
      var end := Poll(BuildVerdict, inputs.checks, timeout).end;
      && r.outcome == BuildOutcome(end, timeout)
      && r.workflow == Settle(Init(Stages), Recording(end, SummaryOf, FailurePayload(inputs.started.value), Some(TimeoutNote(timeout))))
    ensures r.outcome.Finished? <==> Complete(r.workflow) && r.workflow.results[Build].value.Summary?
    ensures r.outcome.Finished? ==> r.workflow.results[Build].value.status == BuildSucceeded
    ensures r.outcome.Aborted? && (r.outcome.fault.TerminalStatus? || r.outcome.fault.DeadlineExceeded?) ==>
      r.workflow.results[Build].Some? && !r.workflow.results[Build].value.Summary?
    ensures r.outcome.Aborted? && r.outcome.fault.DeadlineExceeded? ==>
      r.outcome.fault.timeout == if inputs.remainingMs / 1000 > BuildFloor then inputs.remainingMs / 1000 else BuildFloor
    ensures r.outcome.StillPolling? || r.outcome == Aborted(StartFailed) ==> r.workflow.results[Build] == None
    ensures r.outcome == Aborted(StartFailed) <==> inputs.started.None?
  {
    StagesWellFormed();
    var w := Init<Stage, Payload>(Stages);
    assert Stages[0] == Build;
    DefaultBudget(inputs.remainingMs);
    var timeout := SetTimeoutBudgets(inputs.remainingMs, FullBudget).value;
    var request := Submission(config, inputs.timestamp);
    if inputs.started.None? {
      return Report(Aborted(StartFailed), w, Some(request));
    }
    var stage := BuildStage(w, inputs.started.value, inputs.checks, timeout);
    r := Report(stage.outcome, stage.workflow, Some(request));
  }
}

=== FILE: kernel_creation.dfy ===
/**
 `KernelCreationWorkflow`: the build-then-publish variant. After the build
 it registers the image, creates an image version, stamps that version into
 the matching custom-image descriptor, upserts the app-image configuration
 and updates the domain, each stage recorded once in the workflow state.
 */
module KernelCreation {
  import opened Workflow
  import opened Polling
  import opened Remote
  import opened Budget

  /** The stages of this variant, in execution order. */
  datatype Stage = Build | CreateImage | CreateImageVer | ConfigAppImage | UpdateDomain

  /** Each stage's key in the source's `results` dictionary. */
  function Name(s: Stage): (n: string)
    ensures n != EndName
  {
    match s
    case Build => "build"
    case CreateImage => "create_image"
    case CreateImageVer => "create_image_ver"
    case ConfigAppImage => "config_app_image"
    case UpdateDomain => "update_domain"
  }


  /** The source's `current()`: the current stage's name, or the end marker. */
  function CurrentName(w: Workflow<Stage, Payload>): (n: string)
    ensures n == EndName <==> Complete(w)
    ensures !Complete(w) ==> n == Name(w.stages[w.idx])
  {
    match Current(w)
    case At(s) => Name(s)
    case End => EndName
  }

  /** The stage list of this variant. */
  const Stages: seq<Stage> := [Build, CreateImage, CreateImageVer, ConfigAppImage, UpdateDomain]

  /** The publish timeout never exceeds this many seconds. */
  const PublishCeiling: nat := 600

  /** What the stages record: the remote's description for each stage, or a timeout notice. */
  datatype Payload =
    | BuildRecord(build: Option<BuildInfo>)
    | ImageRecord(image: ImageDescription)
    | VersionRecord(imageVersion: ImageVersionDescription)
    | AppConfigRecord(appConfig: AppImageConfigResponse)
    | DomainRecord(domain: DomainDescription)
    | TimeoutNotice(timeout: nat)   // the message `TimeoutMessage(timeout)`

  /** The per-phase timeouts in seconds. */
  datatype Timeouts = Timeouts(build: nat, publish: nat)

  /** An entry of the domain's custom-image list. */
  datatype CustomImage = CustomImage(imageName: string, appImageConfigName: string, imageVersionNumber: Option<int>)

  /**
   The invocation configuration: the build project, the repository (used
   only for the image URI, which is not modelled), the image and its role,
   the build fraction, the app-image configuration name, the domain and the
   domain's custom-image list.
   */
  datatype Config = Config(
    cbProject: string,
    ecrRepoName: string,
    imageName: string,
    imagePermissions: string,
    buildTimeBudget: Fraction,
    appImageConfigName: string,
    domainId: string,
    customImages: seq<CustomImage>)

  /**
   What the outside world supplies: the remaining execution time, the
   submission time, the build id `start_build` returned (None for an empty
   answer), the answers of each poll loop with their elapsed seconds, and
   the answer of the app-image configuration upsert.
   */
  datatype Inputs = Inputs(
    remainingMs: nat,
    timestamp: nat,
    started: Option<string>,
    buildChecks: seq<Check<Option<BuildInfo>>>,
    imageChecks: seq<Check<ImageDescription>>,
    versionChecks: seq<Check<ImageVersionDescription>>,
    appConfig: AppImageConfigResponse,
    domainChecks: seq<Check<DomainDescription>>)

  /**
   How the run ended, the workflow state it left, the idempotency token of
   the build submission (if one was made) and the custom-image list sent to
   `update_domain` (if that call was reached).
   */
  datatype Report = Report(outcome: Outcome<Stage>, workflow: Workflow<Stage, Payload>, token: Option<nat>, domainImages: Option<seq<CustomImage>>)

  /** The stage list satisfies the engine's requirements. */
  lemma StagesWellFormed()
    ensures WellFormed(Stages)
  {
  }

  /** Construction: exactly the five stage keys, all unset, index 0, at the build stage. */
  lemma InitialState()
    ensures forall s: Stage :: s in Init<Stage, Payload>(Stages).results && Init<Stage, Payload>(Stages).results[s] == None
    ensures Init<Stage, Payload>(Stages).idx == 0 && CurrentName(Init<Stage, Payload>(Stages)) == "build"
  {
    StagesWellFormed();
    InitHoldsEveryStage<Stage, Payload>(Stages);
    forall s: Stage ensures s in Stages {
      match s
      case Build => assert Stages[0] == s;
      case CreateImage => assert Stages[1] == s;
      case CreateImageVer => assert Stages[2] == s;
      case ConfigAppImage => assert Stages[3] == s;
      case UpdateDomain => assert Stages[4] == s;
    }
  }

  /** After five records the workflow is complete with each payload under its stage; a sixth changes nothing. */
  lemma FiveRecordsComplete(infos: seq<Payload>, extra: Payload)
    requires |infos| == 5
    ensures Valid(Drive(Init<Stage, Payload>(Stages), infos)) && Drive(Init<Stage, Payload>(Stages), infos).stages == Stages
    ensures CurrentName(Drive(Init<Stage, Payload>(Stages), infos)) == EndName
    ensures forall j :: 0 <= j < 5 ==> Drive(Init<Stage, Payload>(Stages), infos).results[Stages[j]] == Some(infos[j])
    ensures UpdateAndNext(Drive(Init<Stage, Payload>(Stages), infos), extra) == Drive(Init<Stage, Payload>(Stages), infos)
  {
    StagesWellFormed();
    CompletesAfterEveryStage(Stages, infos, extra);
  }

  /** Before the fifth record the workflow is not complete: it names the stage after the last one recorded. */
  lemma FewerRecordsIncomplete(infos: seq<Payload>)
    requires |infos| < 5
    ensures CurrentName(Drive(Init<Stage, Payload>(Stages), infos)) == Name(Stages[|infos|]) != EndName
  {
    StagesWellFormed();
    IncompleteBeforeEveryStage(Init<Stage, Payload>(Stages), infos);
  }

  /**
   `_set_timeout_budgets` of this variant: refuse a fraction outside (0, 1];
   otherwise the build timeout is the truncated share of the remaining
   seconds with no floor, and the publish timeout is nine tenths of the
   remaining seconds, truncated and capped at 600.
   */
  function SetTimeoutBudgets(ms: nat, f: Fraction): (r: Result<Timeouts, Fault<Stage>>)
    requires f.den > 0
    ensures r.Err? <==> !(0.0 < RealOf(f) <= 1.0)
    ensures r.Err? ==> r.error == BudgetRejected
    ensures r.Ok? ==> r.value.build * (1000 * f.den) <= ms * f.num < (r.value.build + 1) * (1000 * f.den)
    ensures r.Ok? ==> r.value.publish <= PublishCeiling
    ensures r.Ok? ==> (r.value.publish == PublishCeiling <==> ms * 9 >= PublishCeiling * 10000)
    ensures r.Ok? && r.value.publish < PublishCeiling ==>
      r.value.publish * 10000 <= ms * 9 < (r.value.publish + 1) * 10000
  {
    if !Acceptable(f) then Err(BudgetRejected)
    else
      var publish := NineTenthsSeconds(ms);
      Ok(Timeouts(ScaledSeconds(ms, f), if publish < PublishCeiling then publish else PublishCeiling))
  }

  /**
   Unlike the build-only variant, this one puts no floor under the build
   timeout: with less than 900 seconds left and the full fraction, its
   build timeout is the remaining whole seconds, below the other variant's.
   */
  lemma NoBuildFloor(ms: nat)
    requires ms < 900000
    ensures SetTimeoutBudgets(ms, FullBudget).Ok?
    ensures SetTimeoutBudgets(ms, FullBudget).value.build == ms / 1000 < 900
  {
    var b := SetTimeoutBudgets(ms, FullBudget).value.build;
    assert b * 1000 <= ms < (b + 1) * 1000;
  }

  /** With ten million milliseconds left and half the time for the build, the build gets 5000 s and publishing 600 s. */
  lemma LongRunBudget()
    ensures SetTimeoutBudgets(10000000, Fraction(1, 2)) == Ok(Timeouts(5000, 600))
  {
    var r := SetTimeoutBudgets(10000000, Fraction(1, 2));
    assert r.Ok?;
    assert r.value.build * 2000 <= 10000000 < (r.value.build + 1) * 2000;
  }

  /** A descriptor is stamped when both its image name and its app-image configuration name match. */
  predicate Matches(image: CustomImage, imageName: string, appConfigName: string): (m: bool)
    ensures image.imageName != imageName ==> !m
    ensures image.appImageConfigName != appConfigName ==> !m
    ensures image.imageName == imageName && image.appImageConfigName == appConfigName ==> m
  {
    image.imageName == imageName && image.appImageConfigName == appConfigName
  }

  /**
   `_update_container_config_ver`: every descriptor matching on both names
   gets the new version number; every other descriptor, and the length of
   the list, stay as they were. When nothing matches the list is unchanged.
   */
  function UpdateContainerConfigVer(images: seq<CustomImage>, imageName: string, appConfigName: string, version: int): (r: seq<CustomImage>)
    ensures |r| == |images|
    ensures forall i :: 0 <= i < |images| && Matches(images[i], imageName, appConfigName) ==>
      r[i] == images[i].(imageVersionNumber := Some(version))
    ensures forall i :: 0 <= i < |images| && !Matches(images[i], imageName, appConfigName) ==>
      r[i] == images[i]
    ensures (forall i :: 0 <= i < |images| ==> !Matches(images[i], imageName, appConfigName)) ==> r == images
    decreases |images|
  {
    if |images| == 0 then []
    else
      var head := if Matches(images[0], imageName, appConfigName) then images[0].(imageVersionNumber := Some(version)) else images[0];
      [head] + UpdateContainerConfigVer(images[1..], imageName, appConfigName, version)
  }

  /** Stamping twice with the same version is stamping once. */
  lemma StampIdempotent(images: seq<CustomImage>, imageName: string, appConfigName: string, version: int)
    ensures UpdateContainerConfigVer(UpdateContainerConfigVer(images, imageName, appConfigName, version), imageName, appConfigName, version)
      == UpdateContainerConfigVer(images, imageName, appConfigName, version)
  {
    var once := UpdateContainerConfigVer(images, imageName, appConfigName, version);
    var twice := UpdateContainerConfigVer(once, imageName, appConfigName, version);
    assert forall i :: 0 <= i < |once| ==> Matches(once[i], imageName, appConfigName) == Matches(images[i], imageName, appConfigName);
    assert forall i :: 0 <= i < |once| ==> twice[i] == once[i];
  }

  /** After stamping, exactly the matching descriptors carry the new version (unless they already did). */
  lemma StampedExactlyTheMatches(images: seq<CustomImage>, imageName: string, appConfigName: string, version: int, i: nat)
    requires i < |images|
    requires images[i].imageVersionNumber != Some(version)
    ensures UpdateContainerConfigVer(images, imageName, appConfigName, version)[i].imageVersionNumber == Some(version)
      <==> Matches(images[i], imageName, appConfigName)
  {
  }

  /**
   How a stage's own poll loop reads a record. The app-image configuration
   has no loop: its record always stands as a success. A timeout notice is
   neither a success nor a failure.
   */
  function ReadRecord(p: Payload): (v: Verdict)
    ensures p.TimeoutNotice? ==> v == Pending
    ensures p.AppConfigRecord? ==> v == Succeeded
  {
    match p
    case BuildRecord(b) => BuildVerdict(b)
    case ImageRecord(i) => ImageVerdict(i)
    case VersionRecord(v) => ImageVersionVerdict(v)
    case AppConfigRecord(_) => Succeeded
    case DomainRecord(d) => DomainVerdict(d)
    case TimeoutNotice(_) => Pending
  }

  /** The status field of a record; an empty build answer and a notice have none. */
  function RecordStatus(p: Payload): (status: string) {
    match p
    case BuildRecord(b) => if b.Some? then b.value.buildStatus else ""
    case ImageRecord(i) => i.imageStatus
    case VersionRecord(v) => v.imageVersionStatus
    case AppConfigRecord(_) => ""
    case DomainRecord(d) => d.status
    case TimeoutNotice(_) => ""
  }

  function AsBuildRecord(b: Option<BuildInfo>): (p: Payload) { BuildRecord(b) }
  function AsImageRecord(i: ImageDescription): (p: Payload) { ImageRecord(i) }
  function AsVersionRecord(v: ImageVersionDescription): (p: Payload) { VersionRecord(v) }
  function AsDomainRecord(d: DomainDescription): (p: Payload) { DomainRecord(d) }

  /** A loop's answers as the records they would become, with their elapsed seconds kept. */
  function Lift<I>(checks: seq<Check<I>>, wrap: I -> Payload): (r: seq<Check<Payload>>)
    ensures |r| == |checks|
    ensures forall i :: 0 <= i < |checks| ==> r[i] == Check(wrap(checks[i].info), checks[i].elapsed)
    decreases |checks|
  {
    if |checks| == 0 then [] else [Check(wrap(checks[0].info), checks[0].elapsed)] + Lift(checks[1..], wrap)
  }

  /**
   How one poll loop of this class ends: the description is recorded on
   terminal success (the run goes on) and on terminal failure (the run
   raises). On timeout, `_handle_wait` records the timeout notice and raises
   when `recordTimeouts` holds; otherwise it raises a NameError without
   recording anything, as the source does.
   */
  function Conclude(w: Workflow<Stage, Payload>, end: PollEnd<Payload>, timeout: nat, recordTimeouts: bool): (r: StageResult<Stage, Payload>)
    requires !Complete(w)
    ensures r.workflow == Settle(w, r.recorded)
    ensures r.outcome.StillPolling? <==> end.Exhausted?
    ensures r.outcome.Finished? <==> end.Success?
    ensures end.Success? || end.Failure? ==> r.recorded == Some(end.info)
    ensures end.Failure? ==> r.outcome == Aborted(TerminalStatus(Current(w).stage, RecordStatus(end.info)))
    ensures end.Timeout? && recordTimeouts ==>
      r.outcome == Aborted(DeadlineExceeded(Current(w).stage, timeout)) && r.recorded == Some(TimeoutNotice(timeout))
    ensures end.Timeout? && !recordTimeouts ==> r.outcome == Aborted(UndefinedName("info")) && r.recorded == None
    ensures end.Exhausted? ==> r.recorded == None
  {
    var timeoutPayload := if recordTimeouts then Some(TimeoutNotice(timeout)) else None;
    var recorded := Recording(end, (p: Payload) => p, (p: Payload) => p, timeoutPayload);
    var outcome :=
      match end
      case Success(_) => Finished
      case Failure(info) => Aborted(TerminalStatus(Current(w).stage, RecordStatus(info)))
      case Timeout(_) => if recordTimeouts then Aborted(DeadlineExceeded(Current(w).stage, timeout)) else Aborted(UndefinedName("info"))
      case Exhausted => StillPolling;
    StageResult(Settle(w, recorded), outcome, recorded)
  }

  /** Every stage before position `n` holds a record its loop reads as a success. */
  ghost predicate SucceededBefore(w: Workflow<Stage, Payload>, n: nat) {
    forall j :: 0 <= j < n && j < |w.stages| ==>
      w.stages[j] in w.results && w.results[w.stages[j]].Some? && ReadRecord(w.results[w.stages[j]].value) == Succeeded
  }

  /** Recording a success at the index extends the run of successes by one, and touches no other slot. */
  lemma RecordSuccess(w: Workflow<Stage, Payload>, info: Payload)
    requires Valid(w) && w.idx < |w.stages| && SucceededBefore(w, w.idx)
    requires ReadRecord(info) == Succeeded
    ensures Valid(UpdateAndNext(w, info)) && UpdateAndNext(w, info).idx == w.idx + 1
    ensures SucceededBefore(UpdateAndNext(w, info), w.idx + 1)
    ensures forall j :: 0 <= j < |w.stages| ==>
      UpdateAndNext(w, info).results[w.stages[j]] == if j == w.idx then Some(info) else w.results[w.stages[j]]
  {
    UpdateAndNextSlot(w, info);
  }

  /**
   What every report of this class satisfies. The state is valid over the
   five stages. A finished run has recorded a success in every stage. A raise
   from a status or a timeout names the stage recorded last, whose record is
   the failing description or the timeout notice, and every earlier record
   is a success. A NameError, or a loop still polling, leaves only
   successes recorded.
   */
  ghost predicate Consistent(o: Outcome<Stage>, w: Workflow<Stage, Payload>) {
    && Valid(w) && w.stages == Stages
    && (o.Finished? ==> Complete(w) && SucceededBefore(w, |Stages|))
    && (o.Aborted? && (o.fault.TerminalStatus? || o.fault.DeadlineExceeded?) ==>
          && 0 < w.idx
          && o.fault.stage == Stages[w.idx - 1]
          && SucceededBefore(w, w.idx - 1))
    && (o.Aborted? && o.fault.TerminalStatus? ==>
          var rec := w.results[Stages[w.idx - 1]].value;
          ReadRecord(rec) == Failed && RecordStatus(rec) == o.fault.status)
    && (o.Aborted? && o.fault.DeadlineExceeded? ==>
          w.results[Stages[w.idx - 1]] == Some(TimeoutNotice(o.fault.timeout)))
    && (o.StillPolling? || (o.Aborted? && o.fault.UndefinedName?) ==> SucceededBefore(w, w.idx))
  }

  /**
   One poll-loop stage at index `w.idx` of a valid run whose earlier stages
   all succeeded: the loop's end decides the outcome, a record lands in this
   stage's slot and nowhere else, and the index moves past the stage exactly
   when something was recorded.
   */
  method PollStage(w: Workflow<Stage, Payload>, checks: seq<Check<Payload>>, timeout: nat, recordTimeouts: bool)
    returns (s: StageResult<Stage, Payload>)
    requires Valid(w) && w.stages == Stages && w.idx < |Stages| && SucceededBefore(w, w.idx)
    ensures s == Conclude(w, Poll(ReadRecord, checks, timeout).end, timeout, recordTimeouts)
    ensures Valid(s.workflow) && s.workflow.stages == Stages
    ensures s.outcome.Finished? ==> SucceededBefore(s.workflow, s.workflow.idx)
    ensures !s.outcome.Finished? || s.workflow.idx == |Stages| ==> Consistent(s.outcome, s.workflow)
    ensures s.workflow.idx == if s.recorded.Some? then w.idx + 1 else w.idx
    ensures forall j :: 0 <= j < |Stages| && j != w.idx ==> s.workflow.results[Stages[j]] == w.results[Stages[j]]
    ensures s.recorded.Some? ==> s.workflow.results[Stages[w.idx]] == s.recorded
    ensures var e := Poll(ReadRecord, checks, timeout).end;
      && (s.outcome.Finished? <==> e.Success?)
      && (s.outcome.StillPolling? <==> e.Exhausted?)
      && (e.Success? || e.Failure? ==> s.recorded == Some(e.info))
      && (e.Exhausted? ==> s.recorded.None?)
    ensures s.outcome.Finished? ==> s.recorded.Some? && ReadRecord(s.recorded.value) == Succeeded
    ensures s.outcome.Aborted? ==> s.outcome.fault.TerminalStatus? || s.outcome.fault.DeadlineExceeded? || s.outcome.fault.UndefinedName?
    ensures s.outcome.Aborted? && s.outcome.fault.TerminalStatus? ==>
      && s.recorded.Some? && ReadRecord(s.recorded.value) == Failed
      && s.outcome.fault == TerminalStatus(Stages[w.idx], RecordStatus(s.recorded.value))
    ensures s.outcome.Aborted? && s.outcome.fault.DeadlineExceeded? ==>
      && recordTimeouts
      && s.outcome.fault == DeadlineExceeded(Stages[w.idx], timeout)
      && s.recorded == Some(TimeoutNotice(timeout))
    ensures s.outcome.Aborted? && s.outcome.fault.UndefinedName? ==> !recordTimeouts && s.recorded.None?
    ensures Poll(ReadRecord, checks, timeout).end.Timeout? ==>
      s.outcome == if recordTimeouts then Aborted(DeadlineExceeded(Stages[w.idx], timeout)) else Aborted(UndefinedName("info"))
  {
    var run := Poll(ReadRecord, checks, timeout);
    s := Conclude(w, run.end, timeout, recordTimeouts);
    ConcludeFrame(w, run.end, timeout, recordTimeouts);
    ConcludeInState(w, run.end, timeout, recordTimeouts);
  }

  /**
   A concluded loop in a valid run: the record lands in the current slot and
   nowhere else, and the index moves past the stage exactly when something
   was recorded.
   */
  lemma ConcludeFrame(w: Workflow<Stage, Payload>, end: PollEnd<Payload>, timeout: nat, recordTimeouts: bool)
    requires Valid(w) && w.stages == Stages && w.idx < |Stages|
    ensures var s := Conclude(w, end, timeout, recordTimeouts);
      && Valid(s.workflow) && s.workflow.stages == Stages
      && s.workflow.idx == (if s.recorded.Some? then w.idx + 1 else w.idx)
      && (forall j :: 0 <= j < |Stages| && j != w.idx ==> s.workflow.results[Stages[j]] == w.results[Stages[j]])
      && (s.recorded.Some? ==> s.workflow.results[Stages[w.idx]] == s.recorded)
  {
    var s := Conclude(w, end, timeout, recordTimeouts);
    if s.recorded.Some? {
      UpdateAndNextSlot(w, s.recorded.value);
    }
  }

  /**
   A concluded loop in a valid run whose earlier stages all succeeded, on
   descriptions its loop read as terminal: going on leaves only successes
   recorded, and any other outcome leaves a consistent state.
   */
  lemma ConcludeInState(w: Workflow<Stage, Payload>, end: PollEnd<Payload>, timeout: nat, recordTimeouts: bool)
    requires Valid(w) && w.stages == Stages && w.idx < |Stages| && SucceededBefore(w, w.idx)
    requires end.Success? ==> ReadRecord(end.info) == Succeeded
    requires end.Failure? ==> ReadRecord(end.info) == Failed
    ensures var s := Conclude(w, end, timeout, recordTimeouts);
      && (s.outcome.Finished? ==> SucceededBefore(s.workflow, s.workflow.idx))
      && (!s.outcome.Finished? || s.workflow.idx == |Stages| ==> Consistent(s.outcome, s.workflow))
  {
    var s := Conclude(w, end, timeout, recordTimeouts);
    ConcludeFrame(w, end, timeout, recordTimeouts);
    if s.recorded.Some? {
      SucceededKept(w, s.recorded.value);
      if end.Success? {
        RecordSuccess(w, end.info);
      }
    }
  }

  /** Recording at the index leaves the successes before it in place. */
  lemma SucceededKept(w: Workflow<Stage, Payload>, info: Payload)
    requires Valid(w) && w.idx < |w.stages| && SucceededBefore(w, w.idx)
    ensures SucceededBefore(UpdateAndNext(w, info), w.idx)
  {
    UpdateAndNextSlot(w, info);
  }

  /** The build loop times out: the budget is accepted, the build starts, and its loop ends by timeout. */
  ghost predicate BuildLoopTimesOut(config: Config, inputs: Inputs)
    requires config.buildTimeBudget.den > 0
  {
    && Acceptable(config.buildTimeBudget)
    && inputs.started.Some?
    && Poll(ReadRecord, Lift(inputs.buildChecks, AsBuildRecord), SetTimeoutBudgets(inputs.remainingMs, config.buildTimeBudget).value.build).end.Timeout?
  }

  /**
   The build loop can time out: with the default fraction, less than a
   second left, and a first answer that is empty and read after the budget
   has passed, the first wait decision gives up.
   */
  lemma BuildTimeoutReachable(config: Config, inputs: Inputs)
    requires config.buildTimeBudget == FullBudget
    requires inputs.started.Some?
    requires inputs.remainingMs < 1000
    requires |inputs.buildChecks| > 0 && inputs.buildChecks[0].info.None? && inputs.buildChecks[0].elapsed > 0
    ensures BuildLoopTimesOut(config, inputs)
  {
    var f := config.buildTimeBudget;
    var t := SetTimeoutBudgets(inputs.remainingMs, f).value;
    var s := ScaledSeconds(inputs.remainingMs, f);
    assert s * 1000 <= inputs.remainingMs;
    assert t.build == 0;
    var checks := Lift(inputs.buildChecks, AsBuildRecord);
    assert checks[0] == Check(BuildRecord(None), inputs.buildChecks[0].elapsed);
    assert ReadRecord(checks[0].info) == Pending;
  }

  /**
   The report the run produces from its inputs, stage by stage: each loop's
   end is concluded at its stage, and only a success goes on to the next
   stage. This is the reference the stage methods are held to.
   */
  ghost function ExpectedRun(config: Config, inputs: Inputs, recordTimeouts: bool): Report
    requires config.buildTimeBudget.den > 0
  {
    var budgets := SetTimeoutBudgets(inputs.remainingMs, config.buildTimeBudget);
    if budgets.Err? then Report(Aborted(BudgetRejected), Init(Stages), None, None)
    else if inputs.started.None? then Report(Aborted(StartFailed), Init(Stages), Some(Token(inputs.timestamp)), None)
    else ExpectedBuild(config, inputs, budgets.value, Token(inputs.timestamp), recordTimeouts)
  }

  /** The build loop from the fresh state, then the publish stages with the publish timeout. */
  ghost function ExpectedBuild(config: Config, inputs: Inputs, t: Timeouts, token: nat, recordTimeouts: bool): Report {
    var w := Init<Stage, Payload>(Stages);
    var s := Conclude(w, Poll(ReadRecord, Lift(inputs.buildChecks, AsBuildRecord), t.build).end, t.build, recordTimeouts);
    if !s.outcome.Finished? then Report(s.outcome, s.workflow, Some(token), None)
    else ExpectedImage(config, inputs, t.publish, s.workflow, token, recordTimeouts)
  }

  /** The image loop at the second stage, then the image version. */
  ghost function ExpectedImage(config: Config, inputs: Inputs, timeout: nat, w: Workflow<Stage, Payload>, token: nat, recordTimeouts: bool): Report
    requires w.stages == Stages && w.idx == 1
  {
    var s := Conclude(w, Poll(ReadRecord, Lift(inputs.imageChecks, AsImageRecord), timeout).end, timeout, recordTimeouts);
    if !s.outcome.Finished? then Report(s.outcome, s.workflow, Some(token), None)
    else ExpectedVersion(config, inputs, timeout, s.workflow, token, recordTimeouts)
  }

  /** The image-version loop at the third stage, then the domain with the created version stamped in. */
  ghost function ExpectedVersion(config: Config, inputs: Inputs, timeout: nat, w: Workflow<Stage, Payload>, token: nat, recordTimeouts: bool): Report
    requires w.stages == Stages && w.idx == 2
  {
    var e := Poll(ReadRecord, Lift(inputs.versionChecks, AsVersionRecord), timeout).end;
    var s := Conclude(w, e, timeout, recordTimeouts);
    if !s.outcome.Finished? then Report(s.outcome, s.workflow, Some(token), None)
    else
      var images := UpdateContainerConfigVer(config.customImages, config.imageName, config.appImageConfigName, e.info.imageVersion.version);
      ExpectedDomain(inputs, timeout, s.workflow, token, recordTimeouts, images)
  }

  /** The configuration answer recorded at the fourth stage, then the domain loop at the fifth. */
  ghost function ExpectedDomain(inputs: Inputs, timeout: nat, w: Workflow<Stage, Payload>, token: nat, recordTimeouts: bool, images: seq<CustomImage>): Report
    requires w.stages == Stages && w.idx == 3
  {
    var w4 := UpdateAndNext(w, AppConfigRecord(inputs.appConfig));
    var s := Conclude(w4, Poll(ReadRecord, Lift(inputs.domainChecks, AsDomainRecord), timeout).end, timeout, recordTimeouts);
    Report(s.outcome, s.workflow, Some(token), Some(images))
  }

  /** Two records from the fresh state fill the first two slots and leave the other three unset. */
  lemma TwoRecordsFromStart(x: Payload, y: Payload)
    ensures var w := UpdateAndNext(UpdateAndNext(Init<Stage, Payload>(Stages), x), y);
      && Valid(w) && w.stages == Stages && w.idx == 2
      && w.results == map[Build := Some(x), CreateImage := Some(y), CreateImageVer := None, ConfigAppImage := None, UpdateDomain := None]
  {
    StagesWellFormed();
    InitialState();
    TwoRecordsFrom(Init<Stage, Payload>(Stages), x, y);
  }

  /** The same two steps from any valid state at the first stage whose slots are all unset. */
  lemma TwoRecordsFrom(w: Workflow<Stage, Payload>, x: Payload, y: Payload)
    requires Valid(w) && w.stages == Stages && w.idx == 0
    requires forall s: Stage :: s in w.results && w.results[s] == None
    ensures var w2 := UpdateAndNext(UpdateAndNext(w, x), y);
      && Valid(w2) && w2.stages == Stages && w2.idx == 2
      && w2.results == map[Build := Some(x), CreateImage := Some(y), CreateImageVer := None, ConfigAppImage := None, UpdateDomain := None]
  {
    var w1 := UpdateAndNext(w, x);
    var w2 := UpdateAndNext(w1, y);
    var m := map[Build := Some(x), CreateImage := Some(y), CreateImageVer := None, ConfigAppImage := None, UpdateDomain := None];
    assert Current(w).stage == Build;
    assert Current(w1).stage == CreateImage;
    forall s: Stage ensures s in w2.results && w2.results[s] == m[s] {
      assert s in w.results;
    }
    assert w2.results.Keys == m.Keys;
  }

  /** A build loop whose first answer is a successful build moves on to the image loop with that build recorded. */
  lemma BuildSuccessMovesOn(config: Config, inputs: Inputs, t: Timeouts, token: nat, recordTimeouts: bool, b: BuildInfo)
    requires b.buildStatus == BuildSucceeded
    requires |inputs.buildChecks| > 0 && inputs.buildChecks[0].info == Some(b)
    ensures ExpectedBuild(config, inputs, t, token, recordTimeouts)
         == ExpectedImage(config, inputs, t.publish, UpdateAndNext(Init<Stage, Payload>(Stages), BuildRecord(Some(b))), token, recordTimeouts)
  {
    var builds := Lift(inputs.buildChecks, AsBuildRecord);
    assert builds[0].info == BuildRecord(Some(b));
    assert Poll(ReadRecord, builds, t.build).end == Success(BuildRecord(Some(b)));
  }

  /** An image loop whose first answer is CREATE_FAILED records it and raises at the image stage. */
  lemma ImageFailureRaises(config: Config, inputs: Inputs, timeout: nat, w: Workflow<Stage, Payload>, token: nat, recordTimeouts: bool, image: ImageDescription)
    requires w.stages == Stages && w.idx == 1
    requires image.imageStatus == "CREATE_FAILED"
    requires |inputs.imageChecks| > 0 && inputs.imageChecks[0].info == image
    ensures ExpectedImage(config, inputs, timeout, w, token, recordTimeouts)
         == Report(Aborted(TerminalStatus(CreateImage, "CREATE_FAILED")), UpdateAndNext(w, ImageRecord(image)), Some(token), None)
  {
    var images := Lift(inputs.imageChecks, AsImageRecord);
    assert images[0].info == ImageRecord(image);
    assert Poll(ReadRecord, images, timeout).end == Failure(ImageRecord(image));
    assert Current(w).stage == CreateImage;
  }

  /**
   A build that succeeds followed by an image that fails to be created: the
   run raises at the image stage with that status, the build and image
   records stay in place, and the three later stages stay unset.
   */
  lemma ImageFailureStopsTheRun(config: Config, inputs: Inputs, recordTimeouts: bool, b: BuildInfo, image: ImageDescription)
    requires config.buildTimeBudget.den > 0 && Acceptable(config.buildTimeBudget)
    requires inputs.started.Some?
    requires b.buildStatus == BuildSucceeded && image.imageStatus == "CREATE_FAILED"
    requires |inputs.buildChecks| > 0 && inputs.buildChecks[0].info == Some(b)
    requires |inputs.imageChecks| > 0 && inputs.imageChecks[0].info == image
    ensures var r := ExpectedRun(config, inputs, recordTimeouts);
      && r.outcome == Aborted(TerminalStatus(CreateImage, "CREATE_FAILED"))
      && Valid(r.workflow) && r.workflow.stages == Stages && r.workflow.idx == 2
      && r.workflow.results == map[
           Build := Some(BuildRecord(Some(b))), CreateImage := Some(ImageRecord(image)),
           CreateImageVer := None, ConfigAppImage := None, UpdateDomain := None]
      && r.domainImages.None?
  {
    var t := SetTimeoutBudgets(inputs.remainingMs, config.buildTimeBudget).value;
    var token := Token(inputs.timestamp);
    assert ExpectedRun(config, inputs, recordTimeouts) == ExpectedBuild(config, inputs, t, token, recordTimeouts);
    var w1 := UpdateAndNext(Init<Stage, Payload>(Stages), BuildRecord(Some(b)));
    BuildSuccessMovesOn(config, inputs, t, token, recordTimeouts, b);
    ImageFailureRaises(config, inputs, t.publish, w1, token, recordTimeouts, image);
    TwoRecordsFromStart(BuildRecord(Some(b)), ImageRecord(image));
  }

  /** In a valid state the slots from the index on are unset; at index 0 that includes the build slot. */
  lemma UnsetFromIndex(w: Workflow<Stage, Payload>)
    requires Valid(w) && w.stages == Stages
    ensures forall j :: w.idx <= j < |Stages| ==> w.results[Stages[j]] == None
    ensures w.idx == 0 ==> Build in w.results && w.results[Build] == None
  {
    assert Stages[0] == Build;
  }

  /**
   `run`, with the timeout handling as a switch: budget the phases (before
   any remote call), submit the build with the token of the current
   100-second window, poll it, then publish.
   */
  method RunWith(config: Config, inputs: Inputs, recordTimeouts: bool) returns (r: Report)
    requires config.buildTimeBudget.den > 0
    ensures r == ExpectedRun(config, inputs, recordTimeouts)
    ensures Consistent(r.outcome, r.workflow)
    ensures r.outcome == Aborted(BudgetRejected) <==> !(0.0 < RealOf(config.buildTimeBudget) <= 1.0)
    ensures r.outcome == Aborted(BudgetRejected) ==> r.workflow == Init(Stages) && r.token.None? && r.domainImages.None?
    ensures r.outcome != Aborted(BudgetRejected) ==> r.token == Some(Token(inputs.timestamp))
    ensures r.outcome == Aborted(StartFailed) <==> 0.0 < RealOf(config.buildTimeBudget) <= 1.0 && inputs.started.None?
    ensures r.outcome == Aborted(StartFailed) ==> r.workflow == Init(Stages)
    ensures r.outcome.Finished? ==> r.domainImages.Some?
    ensures r.outcome.Aborted? && r.outcome.fault.DeadlineExceeded? ==>
      && recordTimeouts
      && var t := SetTimeoutBudgets(inputs.remainingMs, config.buildTimeBudget).value;
         r.outcome.fault.timeout == if r.workflow.idx == 1 then t.build else t.publish
    ensures r.outcome.Aborted? && r.outcome.fault.UndefinedName? ==> !recordTimeouts
    ensures r.domainImages.Some? ==> VersionStamped(config, r)
    ensures BuildLoopTimesOut(config, inputs) ==>
      && r.workflow.idx == (if recordTimeouts then 1 else 0)
      && r.outcome == if recordTimeouts
                      then Aborted(DeadlineExceeded(Build, SetTimeoutBudgets(inputs.remainingMs, config.buildTimeBudget).value.build))
                      else Aborted(UndefinedName("info"))
  {
    StagesWellFormed();
    var w := Init<Stage, Payload>(Stages);
    var budgets := SetTimeoutBudgets(inputs.remainingMs, config.buildTimeBudget);
    if budgets.Err? {
      return Report(Aborted(budgets.error), w, None, None);
    }
    var t := budgets.value;
    var token := Token(inputs.timestamp);
    if inputs.started.None? {
      return Report(Aborted(StartFailed), w, Some(token), None);
    }
    r := BuildStage(config, inputs, t, token, recordTimeouts);
  }

  /**
   `_create_kernel_image`'s loop, then `_publish_image_to_studio` with the
   publish timeout: a fresh run whose build was started polls the build
   until it succeeds, then publishes.
   */
  method BuildStage(config: Config, inputs: Inputs, t: Timeouts, token: nat, recordTimeouts: bool) returns (r: Report)
    ensures r == ExpectedBuild(config, inputs, t, token, recordTimeouts)
    ensures Consistent(r.outcome, r.workflow)
    ensures r.token == Some(token)
    ensures r.outcome.Finished? ==> r.domainImages.Some?
    ensures r.outcome.Aborted? ==> r.outcome.fault.TerminalStatus? || r.outcome.fault.DeadlineExceeded? || r.outcome.fault.UndefinedName?
    ensures r.outcome.Aborted? && r.outcome.fault.DeadlineExceeded? ==>
      recordTimeouts && r.outcome.fault.timeout == if r.workflow.idx == 1 then t.build else t.publish
    ensures r.outcome.Aborted? && r.outcome.fault.UndefinedName? ==> !recordTimeouts
    ensures r.domainImages.Some? ==> VersionStamped(config, r)
    ensures Poll(ReadRecord, Lift(inputs.buildChecks, AsBuildRecord), t.build).end.Timeout? ==>
      && r.workflow.idx == (if recordTimeouts then 1 else 0)
      && r.outcome == if recordTimeouts then Aborted(DeadlineExceeded(Build, t.build)) else Aborted(UndefinedName("info"))
  {
    StagesWellFormed();
    var w := Init<Stage, Payload>(Stages);
    var s := PollStage(w, Lift(inputs.buildChecks, AsBuildRecord), t.build, recordTimeouts);
    if !s.outcome.Finished? {
      return Report(s.outcome, s.workflow, Some(token), None);
    }
    r := ImageStage(config, inputs, t.publish, s.workflow, token, recordTimeouts);
  }

  /**
   The list sent to `update_domain` carries the version that was created: the
   image-version stage recorded a `CREATED` description, and the list is the
   configured one with that version stamped in.
   */
  ghost predicate VersionStamped(config: Config, r: Report) {
    && r.domainImages.Some?
    && 3 <= r.workflow.idx
    && CreateImageVer in r.workflow.results
    && r.workflow.results[CreateImageVer].Some?
    && r.workflow.results[CreateImageVer].value.VersionRecord?
    && var d := r.workflow.results[CreateImageVer].value.imageVersion;
       && d.imageVersionStatus == ImageVersionCreated
       && r.domainImages.value == UpdateContainerConfigVer(config.customImages, config.imageName, config.appImageConfigName, d.version)
  }

  /**
   `_create_sagemaker_image`'s loop, the first step of
   `_publish_image_to_studio`: poll the image until it is created, then go
   on to the image version.
   */
  method ImageStage(config: Config, inputs: Inputs, timeout: nat, w: Workflow<Stage, Payload>, token: nat, recordTimeouts: bool)
    returns (r: Report)
    requires Valid(w) && w.stages == Stages && w.idx == 1 && SucceededBefore(w, 1)
    ensures r == ExpectedImage(config, inputs, timeout, w, token, recordTimeouts)
    ensures Consistent(r.outcome, r.workflow) && 1 <= r.workflow.idx
    ensures r.token == Some(token)
    ensures r.outcome.Finished? ==> r.domainImages.Some?
    ensures r.outcome.Aborted? ==> r.outcome.fault.TerminalStatus? || r.outcome.fault.DeadlineExceeded? || r.outcome.fault.UndefinedName?
    ensures r.outcome.Aborted? && (r.outcome.fault.TerminalStatus? || r.outcome.fault.DeadlineExceeded?) ==> 1 < r.workflow.idx
    ensures r.outcome.Aborted? && r.outcome.fault.DeadlineExceeded? ==> recordTimeouts && r.outcome.fault.timeout == timeout
    ensures r.outcome.Aborted? && r.outcome.fault.UndefinedName? ==> !recordTimeouts
    ensures r.domainImages.Some? ==> VersionStamped(config, r)
  {
    var s := PollStage(w, Lift(inputs.imageChecks, AsImageRecord), timeout, recordTimeouts);
    if !s.outcome.Finished? {
      return Report(s.outcome, s.workflow, Some(token), None);
    }
    r := VersionStage(config, inputs, timeout, s.workflow, token, recordTimeouts);
  }

  /**
   `_create_sagemaker_image_version`'s loop: poll the version until it is
   created, then stamp its number into the custom-image list
   (`_update_container_config_ver`) and go on to the domain.
   */
  method VersionStage(config: Config, inputs: Inputs, timeout: nat, w: Workflow<Stage, Payload>, token: nat, recordTimeouts: bool)
    returns (r: Report)
    requires Valid(w) && w.stages == Stages && w.idx == 2 && SucceededBefore(w, 2)
    ensures r == ExpectedVersion(config, inputs, timeout, w, token, recordTimeouts)
    ensures Consistent(r.outcome, r.workflow) && 2 <= r.workflow.idx
    ensures r.token == Some(token)
    ensures r.outcome.Finished? ==> r.domainImages.Some?
    ensures r.outcome.Aborted? ==> r.outcome.fault.TerminalStatus? || r.outcome.fault.DeadlineExceeded? || r.outcome.fault.UndefinedName?
    ensures r.outcome.Aborted? && (r.outcome.fault.TerminalStatus? || r.outcome.fault.DeadlineExceeded?) ==> 2 < r.workflow.idx
    ensures r.outcome.Aborted? && r.outcome.fault.DeadlineExceeded? ==> recordTimeouts && r.outcome.fault.timeout == timeout
    ensures r.outcome.Aborted? && r.outcome.fault.UndefinedName? ==> !recordTimeouts
    ensures r.domainImages.Some? ==> VersionStamped(config, r)
  {
    var checks := Lift(inputs.versionChecks, AsVersionRecord);
    var s := PollStage(w, checks, timeout, recordTimeouts);
    if !s.outcome.Finished? {
      return Report(s.outcome, s.workflow, Some(token), None);
    }
    var run := Poll(ReadRecord, checks, timeout);
    var created := run.end.info.imageVersion;
    assert s.workflow.results[Stages[2]] == Some(VersionRecord(created));
    assert created.imageVersionStatus == ImageVersionCreated;
    var images := UpdateContainerConfigVer(config.customImages, config.imageName, config.appImageConfigName, created.version);
    r := DomainStage(inputs, timeout, s.workflow, token, recordTimeouts, images);
  }

  /**
   `_create_app_config` (either upsert branch records the answer), then
   `_update_studio_domain`: send the stamped list and poll the domain until
   it is in service.
   */
  method DomainStage(inputs: Inputs, timeout: nat, w: Workflow<Stage, Payload>, token: nat, recordTimeouts: bool, images: seq<CustomImage>)
    returns (r: Report)
    requires Valid(w) && w.stages == Stages && w.idx == 3 && SucceededBefore(w, 3)
    ensures r == ExpectedDomain(inputs, timeout, w, token, recordTimeouts, images)
    ensures Consistent(r.outcome, r.workflow) && 4 <= r.workflow.idx
    ensures r.token == Some(token) && r.domainImages == Some(images)
    ensures CreateImageVer in r.workflow.results && r.workflow.results[CreateImageVer] == w.results[CreateImageVer]
    ensures ConfigAppImage in r.workflow.results && r.workflow.results[ConfigAppImage] == Some(AppConfigRecord(inputs.appConfig))
    ensures r.outcome.Aborted? ==> r.outcome.fault.TerminalStatus? || r.outcome.fault.DeadlineExceeded? || r.outcome.fault.UndefinedName?
    ensures r.outcome.Aborted? && (r.outcome.fault.TerminalStatus? || r.outcome.fault.DeadlineExceeded?) ==> r.workflow.idx == 5
    ensures r.outcome.Aborted? && r.outcome.fault.DeadlineExceeded? ==> recordTimeouts && r.outcome.fault.timeout == timeout
    ensures r.outcome.Aborted? && r.outcome.fault.UndefinedName? ==> !recordTimeouts
  {
    var config := AppConfigRecord(inputs.appConfig);
    var w4 := UpdateAndNext(w, config);
    RecordSuccess(w, config);
    assert w4.results[Stages[2]] == w.results[Stages[2]] && w4.results[Stages[3]] == Some(config);
    var s := PollStage(w4, Lift(inputs.domainChecks, AsDomainRecord), timeout, recordTimeouts);
    assert s.workflow.results[Stages[2]] == w.results[Stages[2]] && s.workflow.results[Stages[3]] == Some(config);
    r := Report(s.outcome, s.workflow, Some(token), Some(images));
  }

  /** The run as `lambda_handler` drives it, with timeouts recorded as the build-only variant records them. */
  method Run(config: Config, inputs: Inputs) returns (r: Report)
    requires config.buildTimeBudget.den > 0
    ensures r == ExpectedRun(config, inputs, true)
    ensures Consistent(r.outcome, r.workflow)
    ensures forall j :: r.workflow.idx <= j < |Stages| ==> r.workflow.results[Stages[j]] == None
    ensures !(r.outcome.Aborted? && r.outcome.fault.UndefinedName?)
    ensures BuildLoopTimesOut(config, inputs) ==>
      && r.outcome == Aborted(DeadlineExceeded(Build, SetTimeoutBudgets(inputs.remainingMs, config.buildTimeBudget).value.build))
      && Build in r.workflow.results && r.workflow.results[Build] == Some(TimeoutNotice(r.outcome.fault.timeout))
  {
    r := RunWith(config, inputs, true);
    UnsetFromIndex(r.workflow);
  }

  /**
   The run exactly as written: the timeout path of `_handle_wait` refers to
   a name that is not defined there, so a timeout raises a NameError and
   the timed-out stage is never recorded.
   */
  method RunAsWritten(config: Config, inputs: Inputs) returns (r: Report)
    requires config.buildTimeBudget.den > 0
    ensures r == ExpectedRun(config, inputs, false)
    ensures Consistent(r.outcome, r.workflow)
    ensures forall j :: r.workflow.idx <= j < |Stages| ==> r.workflow.results[Stages[j]] == None
    ensures !(r.outcome.Aborted? && r.outcome.fault.DeadlineExceeded?)
    ensures BuildLoopTimesOut(config, inputs) ==>
      && r.outcome == Aborted(UndefinedName("info"))
      && Build in r.workflow.results && r.workflow.results[Build] == None
  {
    r := RunWith(config, inputs, false);
    UnsetFromIndex(r.workflow);
  }
}

=== FILE: polling.dfy ===
/**
 The poll-until-terminal primitive shared by every stage of both workflows.
 A remote resource is described repeatedly; each description is classified
 as terminal success, terminal failure or still pending, and between
 descriptions `_handle_wait` decides from the elapsed time whether to give
 up, sleep for the fixed interval, or look again at once.

 Remote calls and the clock are inputs here: a poll consumes a finite
 sequence of checks, each pairing the description the remote returned with
 the elapsed seconds read when the wait decision for that check is taken.
 */
module Polling {
  import opened Workflow

  /** Seconds slept between two status checks. */
  const SleepInterval: int := 15

  /** The three outcomes of `_handle_wait`. */
  datatype Wait = GiveUp | Sleep | Recheck

  /**
   `_handle_wait`: give up once the elapsed time exceeds the timeout; sleep
   only when a full interval still ends before the timeout; otherwise return
   at once so that the caller checks again without sleeping.
   */
  function HandleWait(elapsed: int, timeout: int): (d: Wait)
    ensures d.GiveUp? <==> elapsed > timeout
    ensures d.Sleep? <==> elapsed + SleepInterval < timeout
    ensures d.Recheck? <==> timeout - SleepInterval <= elapsed <= timeout
  {
    if elapsed > timeout then GiveUp
    else if elapsed + SleepInterval < timeout then Sleep
    else Recheck
  }

  /**
   A sleep never carries the elapsed time past the timeout: after sleeping
   one interval the next decision does not give up, even if one more second
   has gone by.
   */
  lemma SleepStaysWithinDeadline(elapsed: int, timeout: int, drift: int)
    requires HandleWait(elapsed, timeout).Sleep?
    requires 0 <= drift <= 1
    ensures elapsed + SleepInterval + drift <= timeout
    ensures !HandleWait(elapsed + SleepInterval + drift, timeout).GiveUp?
  {
  }

  /** How a status description is read: terminal success, terminal failure, or not yet terminal. */
  datatype Verdict = Succeeded | Failed | Pending

  /** One status check: the description returned and the elapsed seconds when the wait decision is made. */
  datatype Check<I> = Check(info: I, elapsed: int)

  /** How a poll loop ended. `Exhausted` means the given checks ran out while the loop was still polling. */
  datatype PollEnd<I> = Success(info: I) | Failure(info: I) | Timeout(elapsed: int) | Exhausted

  /** The end of a poll loop together with how many checks it made and how many times it slept. */
  datatype PollRun<I> = PollRun(end: PollEnd<I>, checks: nat, sleeps: nat)

  /** A check that ends the loop: its description is terminal, or it is pending and the timeout has passed. */
  ghost predicate Stops<I>(classify: I -> Verdict, c: Check<I>, timeout: int) {
    classify(c.info) != Pending || c.elapsed > timeout
  }

  /** How many of the checks leave room for a full sleep interval before the timeout. */
  function SleepsIn<I>(cs: seq<Check<I>>, timeout: int): (n: nat)
    ensures n <= |cs|
    decreases |cs|
  {
    if |cs| == 0 then 0
    else (if cs[0].elapsed + SleepInterval < timeout then 1 else 0) + SleepsIn(cs[1..], timeout)
  }

  /**
   The `while True` loop of every stage: a terminal description ends the
   loop at once; a pending one is followed by `_handle_wait`, which either
   ends the loop on timeout or lets it continue after sleeping or not.
   The loop stops at the first check that `Stops`, and at no earlier one.
   */
  function Poll<I>(classify: I -> Verdict, checks: seq<Check<I>>, timeout: int): (r: PollRun<I>)
    ensures r.checks <= |checks| && r.sleeps <= r.checks
    ensures forall i :: 0 <= i < r.checks - 1 ==> !Stops(classify, checks[i], timeout)
    ensures r.end.Exhausted? <==> r.checks == |checks| && (r.checks == 0 || !Stops(classify, checks[r.checks - 1], timeout))
    ensures !r.end.Exhausted? ==> 0 < r.checks && r.sleeps < r.checks && Stops(classify, checks[r.checks - 1], timeout)
    ensures r.end.Success? ==> r.end.info == checks[r.checks - 1].info && classify(r.end.info) == Succeeded
    ensures r.end.Failure? ==> r.end.info == checks[r.checks - 1].info && classify(r.end.info) == Failed
    ensures r.end.Timeout? ==>
      && classify(checks[r.checks - 1].info) == Pending
      && r.end.elapsed == checks[r.checks - 1].elapsed > timeout
    ensures (forall i :: 0 <= i < |checks| ==> checks[i].elapsed + SleepInterval < timeout) ==>
      r.sleeps == if r.end.Exhausted? then r.checks else r.checks - 1
    ensures (forall i :: 0 <= i < |checks| ==> checks[i].elapsed >= 0) && timeout <= SleepInterval ==>
      r.sleeps == 0
    decreases |checks|
  {
    if |checks| == 0 then PollRun(Exhausted, 0, 0)
    else
      var c := checks[0];
      match classify(c.info)
      case Succeeded => PollRun(Success(c.info), 1, 0)
      case Failed => PollRun(Failure(c.info), 1, 0)
      case Pending =>
        var rest := Poll(classify, checks[1..], timeout);
        match HandleWait(c.elapsed, timeout)
        case GiveUp => PollRun(Timeout(c.elapsed), 1, 0)
        case Sleep => PollRun(rest.end, rest.checks + 1, rest.sleeps + 1)
        case Recheck => PollRun(rest.end, rest.checks + 1, rest.sleeps)
  }

  /**
   How many of a run's checks were followed by a wait decision that let the
   loop go on: all of them while it is still polling, all but the last one
   once it has ended.
   */
  function Waited<I>(r: PollRun<I>): (n: nat)
    ensures n <= r.checks && (r.end.Exhausted? ==> n == r.checks)
  {
    if r.end.Exhausted? || r.checks == 0 then r.checks else r.checks - 1
  }

  /**
   The loop sleeps once for every check before the last one it reads whose
   elapsed time leaves a full interval before the timeout, and at no other
   check: the last check either ends the loop or is the last answer given.
   */
  lemma {:induction false} PollSleepCount<I>(classify: I -> Verdict, checks: seq<Check<I>>, timeout: int)
    ensures var r := Poll(classify, checks, timeout);
      Waited(r) == (if r.end.Exhausted? then r.checks else r.checks - 1)
      && r.sleeps == SleepsIn(checks[..Waited(r)], timeout)
    decreases |checks|
  {
    if |checks| > 0 && classify(checks[0].info) == Pending && !HandleWait(checks[0].elapsed, timeout).GiveUp? {
      var rest := Poll(classify, checks[1..], timeout);
      PollGoesOn(classify, checks, timeout);
      PollSleepCount(classify, checks[1..], timeout);
      SleepsOneMore(checks, timeout, rest);
    } else {
      PollEndsAtFirst(classify, checks, timeout);
    }
  }

  /**
   One more check in front of a run that went on: one more wait, and one
   more sleep exactly when that check leaves a full interval.
   */
  lemma SleepsOneMore<I>(checks: seq<Check<I>>, timeout: int, rest: PollRun<I>)
    requires 0 < |checks| && rest.checks < |checks| && (rest.end.Exhausted? || rest.checks > 0)
    requires rest.sleeps == SleepsIn(checks[1..][..Waited(rest)], timeout)
    ensures var fits := if checks[0].elapsed + SleepInterval < timeout then 1 else 0;
      var r := PollRun(rest.end, rest.checks + 1, rest.sleeps + fits);
      Waited(r) == Waited(rest) + 1 && r.sleeps == SleepsIn(checks[..Waited(r)], timeout)
  {
    var m := Waited(rest);
    assert checks[..m + 1][1..] == checks[1..][..m];
  }

  /** A pending first check that does not give up: the loop goes on with the rest, sleeping first if it fits. */
  lemma PollGoesOn<I>(classify: I -> Verdict, checks: seq<Check<I>>, timeout: int)
    requires |checks| > 0 && classify(checks[0].info) == Pending && !HandleWait(checks[0].elapsed, timeout).GiveUp?
    ensures var rest := Poll(classify, checks[1..], timeout);
      Poll(classify, checks, timeout)
        == PollRun(rest.end, rest.checks + 1, rest.sleeps + if checks[0].elapsed + SleepInterval < timeout then 1 else 0)
  {
  }

  /** No checks, a terminal first check, or a first check that gives up: the loop has not slept. */
  lemma PollEndsAtFirst<I>(classify: I -> Verdict, checks: seq<Check<I>>, timeout: int)
    requires !(|checks| > 0 && classify(checks[0].info) == Pending && !HandleWait(checks[0].elapsed, timeout).GiveUp?)
    ensures var r := Poll(classify, checks, timeout);
      r.sleeps == 0 && Waited(r) == 0 && (if r.end.Exhausted? then r.checks else r.checks - 1) == 0
  {
  }

  /**
   What a stage records when its poll loop ends this way: the success
   payload, the failure payload, or the timeout payload when the timeout
   path records one; nothing while the loop is still polling.
   */
  function Recording<I, P>(end: PollEnd<I>, onSuccess: I -> P, onFailure: I -> P, timeoutPayload: Option<P>): (p: Option<P>)
    ensures p.None? <==> end.Exhausted? || (end.Timeout? && timeoutPayload.None?)
    ensures end.Success? ==> p == Some(onSuccess(end.info))
    ensures end.Failure? ==> p == Some(onFailure(end.info))
    ensures end.Timeout? ==> p == timeoutPayload
  {
    match end
    case Success(info) => Some(onSuccess(info))
    case Failure(info) => Some(onFailure(info))
    case Timeout(_) => timeoutPayload
    case Exhausted => None
  }

  /** A single `update_and_next` with the recorded payload, if any. */
  function Settle<S(==), P>(w: Workflow<S, P>, recorded: Option<P>): (r: Workflow<S, P>)
    ensures recorded.None? ==> r == w
    ensures recorded.Some? ==> r == UpdateAndNext(w, recorded.value)
  {
    if recorded.Some? then UpdateAndNext(w, recorded.value) else w
  }

  /** A stage's effect: the workflow after it, how it ended, and what it recorded. */
  datatype StageResult<S, P> = StageResult(workflow: Workflow<S, P>, outcome: Outcome<S>, recorded: Option<P>)

  /** The ways a run stops before reaching the end of its stages; a raising stage is named by its stage value. */
  datatype Fault<S> =
    | BudgetRejected               // the build fraction is outside (0, 1]
    | StartFailed                  // the build service returned no build
    | TerminalStatus(stage: S, status: string)
    | DeadlineExceeded(stage: S, timeout: nat)
    | UndefinedName(name: string)  // a Python NameError

  /** How a run ended. `StillPolling`: the given checks ran out while a poll loop was still waiting. */
  datatype Outcome<S> = Finished | Aborted(fault: Fault<S>) | StillPolling

  /** Decimal digits of a natural number, as Python's `str` prints it. */
  function NatToString(n: nat): (s: string)
    ensures |s| > 0
    ensures forall i :: 0 <= i < |s| ==> '0' <= s[i] <= '9'
    ensures s[0] == '0' ==> n == 0 && |s| == 1
    decreases n
  {
    var d := ['0' + (n % 10) as char];
    if n < 10 then d else NatToString(n / 10) + d
  }

  /** The number a string of decimal digits denotes, most significant digit first. */
  function DecimalValue(s: string): (v: nat)
    decreases |s|
  {
    if |s| == 0 then 0
    else
      var d := s[|s| - 1] as int - '0' as int;
      DecimalValue(s[..|s| - 1]) * 10 + (if 0 <= d <= 9 then d else 0)
  }

  /** Reading back the printed digits gives the number printed, so distinct timeouts print distinctly. */
  lemma {:induction false} DecimalRoundTrip(n: nat)
    ensures DecimalValue(NatToString(n)) == n
    decreases n
  {
    var s := NatToString(n);
    if n >= 10 {
      DecimalRoundTrip(n / 10);
      assert s[..|s| - 1] == NatToString(n / 10);
    }
  }

  /** The fixed text before the timeout in a timeout message. */
  const TimeoutLead: string := "Build exceeded the timeout of "

  /** The fixed advice after the timeout in a timeout message. */
  const TimeoutAdvice: string := "s. Allocate more time, or use the workflow-enabled solution if the build exceeds 15 minutes."

  /**
   The message a timed-out poll loop raises, and in the build-only variant
   also records: the digits between the lead and the advice read back as
   the timeout in seconds.
   */
  function TimeoutMessage(timeout: nat): (m: string)
    ensures |m| > |TimeoutLead| + |TimeoutAdvice|
    ensures m[..|TimeoutLead|] == TimeoutLead && m[|m| - |TimeoutAdvice|..] == TimeoutAdvice
    ensures forall i :: |TimeoutLead| <= i < |m| - |TimeoutAdvice| ==> '0' <= m[i] <= '9'
    ensures m[|TimeoutLead|] == '0' ==> timeout == 0 && |m| == |TimeoutLead| + 1 + |TimeoutAdvice|
    ensures DecimalValue(m[|TimeoutLead|..|m| - |TimeoutAdvice|]) == timeout
  {
    var digits := NatToString(timeout);
    DecimalRoundTrip(timeout);
    Framed(TimeoutLead, digits, TimeoutAdvice);
    TimeoutLead + digits + TimeoutAdvice
  }

  /** A string framed by a lead and a tail gives back the lead, the tail and the middle. */
  lemma Framed(lead: string, middle: string, tail: string)
    ensures var m := lead + middle + tail;
      && |m| == |lead| + |middle| + |tail|
      && m[..|lead|] == lead && m[|m| - |tail|..] == tail
      && m[|lead|..|m| - |tail|] == middle
      && forall i :: |lead| <= i < |m| - |tail| ==> m[i] == middle[i - |lead|]
  {
  }

  /** The timeout can be read back from its message: different timeouts give different messages. */
  lemma TimeoutMessageNamesTimeout(a: nat, b: nat)
    ensures TimeoutMessage(a) == TimeoutMessage(b) ==> a == b
  {
    // the message's contract reads the same timeout back from both
  }
}

=== FILE: remote.dfy ===
/**
 The status records the remote services return, reduced to the fields the
 workflows read, and how each poll loop classifies them. Each resource has
 its own terminal-success value and its own set of terminal-failure values;
 every other status keeps its loop polling.
 */
module Remote {
  import opened Workflow
  import opened Polling

  /** One entry of the build service's `batch_get_builds` answer. */
  datatype BuildInfo = BuildInfo(id: string, arn: string, buildNumber: int, buildStatus: string)

  /** The platform's `describe_image` answer. */
  datatype ImageDescription = ImageDescription(imageName: string, imageStatus: string)

  /** The platform's `describe_image_version` answer. */
  datatype ImageVersionDescription = ImageVersionDescription(imageName: string, imageVersionStatus: string, version: int)

  /** The answer of `create_app_image_config` or `update_app_image_config`. */
  datatype AppImageConfigResponse = AppImageConfigResponse(appImageConfigArn: string)

  /** The platform's `describe_domain` answer. */
  datatype DomainDescription = DomainDescription(domainId: string, status: string)

  const BuildSucceeded: string := "SUCCEEDED"
  const BuildFailures: set<string> := {"FAILED", "FAULT", "STOPPED", "TIMED_OUT"}

  const ImageCreated: string := "CREATED"
  const ImageFailures: set<string> := {"CREATE_FAILED", "UPDATE_FAILED", "DELETE_FAILED", "DELETING"}

  const ImageVersionCreated: string := "CREATED"
  const ImageVersionFailures: set<string> := {"CREATE_FAILED", "DELETE_FAILED", "DELETING"}

  const DomainInService: string := "InService"
  const DomainFailures: set<string> := {"Failed", "Deleting", "Update_Failed", "Delete_Failed"}

  /** Build loop: `SUCCEEDED` ends it well, `FAILED`, `FAULT`, `STOPPED` and `TIMED_OUT` end it badly. */
  function BuildStatusVerdict(status: string): (v: Verdict)
    ensures v == Succeeded <==> status == BuildSucceeded
    ensures v == Failed <==> status in BuildFailures
  {
    if status == "SUCCEEDED" then Succeeded
    else if status == "FAILED" || status == "FAULT" || status == "STOPPED" || status == "TIMED_OUT" then Failed
    else Pending
  }

  /**
   The build loop reads a status only from a non-empty record: an empty
   answer is treated like a pending one and leads to the wait decision.
   */
  function BuildVerdict(info: Option<BuildInfo>): (v: Verdict)
    ensures info.None? ==> v == Pending
    ensures info.Some? ==> v == BuildStatusVerdict(info.value.buildStatus)
  {
    if info.None? then Pending else BuildStatusVerdict(info.value.buildStatus)
  }

  /** Image loop: `CREATED` ends it well; a failed create, update or delete, or a deletion, ends it badly. */
  function ImageVerdict(info: ImageDescription): (v: Verdict)
    ensures v == Succeeded <==> info.imageStatus == ImageCreated
    ensures v == Failed <==> info.imageStatus in ImageFailures
  {
    var s := info.imageStatus;
    if s == "CREATED" then Succeeded
    else if s == "CREATE_FAILED" || s == "UPDATE_FAILED" || s == "DELETE_FAILED" || s == "DELETING" then Failed
    else Pending
  }

  /** Image-version loop: `CREATED` ends it well; a failed create or delete, or a deletion, ends it badly. */
  function ImageVersionVerdict(info: ImageVersionDescription): (v: Verdict)
    ensures v == Succeeded <==> info.imageVersionStatus == ImageVersionCreated
    ensures v == Failed <==> info.imageVersionStatus in ImageVersionFailures
  {
    var s := info.imageVersionStatus;
    if s == "CREATED" then Succeeded
    else if s == "CREATE_FAILED" || s == "DELETE_FAILED" || s == "DELETING" then Failed
    else Pending
  }

  /** Domain loop: `InService` ends it well; `Failed`, `Deleting`, `Update_Failed` and `Delete_Failed` end it badly. */
  function DomainVerdict(info: DomainDescription): (v: Verdict)
    ensures v == Succeeded <==> info.status == DomainInService
    ensures v == Failed <==> info.status in DomainFailures
  {
    var s := info.status;
    if s == "InService" then Succeeded
    else if s == "Failed" || s == "Deleting" || s == "Update_Failed" || s == "Delete_Failed" then Failed
    else Pending
  }

  /**
   The image-version loop is not the image loop: an `UPDATE_FAILED` image
   ends the image loop, while an image version in that status keeps its
   loop polling.
   */
  lemma UpdateFailedEndsOnlyTheImageLoop(name: string, version: int)
    ensures ImageVerdict(ImageDescription(name, "UPDATE_FAILED")) == Failed
    ensures ImageVersionVerdict(ImageVersionDescription(name, "UPDATE_FAILED", version)) == Pending
  {
  }
}

=== FILE: workflow.dfy ===
/**
 The sequential stage state machine that both workflow classes implement
 (`KernelBuildWorkflow` and `KernelCreationWorkflow`): an ordered list of
 stage names, a result slot per stage that starts out unset, and an index
 that names the stage about to run. Recording a result under the current
 stage and advancing by one is the only way the state moves.

 The payload type `P` is whatever a stage stores: a remote status record, a
 summary or an error message.
 */
module Workflow {

  datatype Option<+T> = None | Some(value: T)

  datatype Result<+T, +E> = Ok(value: T) | Err(error: E)

  /**
   What `current` reports: the stage about to run, or the end marker once
   every stage has been recorded.
   */
  datatype Position<S> = At(stage: S) | End

  /** The name `current` reports for the end marker, in both workflow classes. */
  const EndName: string := "End"

  /** The workflow state over stages of type `S` with payloads of type `P`. */
  datatype Workflow<S, P> = Workflow(stages: seq<S>, results: map<S, Option<P>>, idx: nat)

  /** A stage list the engine can run: no stage occurs twice. */
  predicate WellFormed<S(==)>(stages: seq<S>) {
    forall i, j :: 0 <= i < j < |stages| ==> stages[i] != stages[j]
  }

  /** The keys of a result map are exactly the stages of a list. */
  ghost predicate SameKeys<S, P>(results: map<S, Option<P>>, stages: seq<S>) {
    && (forall s :: s in results ==> s in stages)
    && (forall j :: 0 <= j < |stages| ==> stages[j] in results)
  }

  /**
   The state invariant: the result keys are exactly the stage names, the
   index never passes the end, and a stage holds a result exactly when the
   index has moved past it.
   */
  ghost predicate Valid<S, P>(w: Workflow<S, P>) {
    && WellFormed(w.stages)
    && w.idx <= |w.stages|
    && SameKeys(w.results, w.stages)
    && forall j :: 0 <= j < |w.stages| ==> (w.results[w.stages[j]].Some? <==> j < w.idx)
  }

  /** `_init_results`: one unset slot per stage name. */
  function InitResults<S(==), P>(stages: seq<S>): (r: map<S, Option<P>>)
    ensures SameKeys(r, stages)
    ensures forall s :: s in r ==> r[s] == None
  {
    if |stages| == 0 then map[]
    else InitResults(stages[..|stages| - 1])[stages[|stages| - 1] := None]
  }

  /** The constructor: every stage unset, the index at the first stage. */
  function Init<S(==), P>(stages: seq<S>): (w: Workflow<S, P>)
    ensures w.stages == stages && w.idx == 0
    ensures SameKeys(w.results, stages)
    ensures forall s :: s in w.results ==> w.results[s] == None
    ensures WellFormed(stages) ==> Valid(w)
  {
    Workflow(stages, InitResults(stages), 0)
  }

  /** Every listed stage has an unset slot in a new workflow, which stands at the first stage. */
  lemma InitHoldsEveryStage<S, P>(stages: seq<S>)
    requires |stages| > 0
    ensures forall s :: s in stages ==> s in Init<S, P>(stages).results && Init<S, P>(stages).results[s] == None
    ensures Current(Init<S, P>(stages)) == At(stages[0])
  {
    var w := Init<S, P>(stages);
    forall s | s in stages
      ensures s in w.results
    {
      var j :| 0 <= j < |stages| && stages[j] == s;
    }
  }

  /** `current`: the stage about to run, or the end marker past the last one. */
  function Current<S(==), P>(w: Workflow<S, P>): (pos: Position<S>)
    ensures pos.At? <==> w.idx < |w.stages|
    ensures pos.At? ==> pos.stage == w.stages[w.idx] && pos.stage in w.stages
  {
    if w.idx >= |w.stages| then End else At(w.stages[w.idx])
  }

  /** `complete`: the current stage is the end marker. */
  predicate Complete<S(==), P>(w: Workflow<S, P>)
    ensures Complete(w) <==> w.idx >= |w.stages|
  {
    Current(w) == End
  }

  /** `next`: advance the index by one. */
  function Next<S(==), P>(w: Workflow<S, P>): (r: Workflow<S, P>)
    ensures r.stages == w.stages && r.results == w.results && r.idx == w.idx + 1
    ensures w.idx + 1 < |w.stages| ==> Current(r) == At(w.stages[w.idx + 1])
    ensures w.idx + 1 >= |w.stages| ==> Complete(r)
  {
    w.(idx := w.idx + 1)
  }

  /**
   `update_and_next`: a no-op once complete; otherwise the payload goes into
   the current stage's slot and the index advances by exactly one.
   */
  function UpdateAndNext<S(==), P>(w: Workflow<S, P>, info: P): (r: Workflow<S, P>)
    ensures r.stages == w.stages
    ensures r.idx >= w.idx
    ensures Complete(w) ==> r == w
    ensures !Complete(w) ==> r.idx == w.idx + 1 && Current(w).stage in r.results && r.results[Current(w).stage] == Some(info)
    ensures !Complete(w) ==> forall s :: s in w.results && s != Current(w).stage ==> s in r.results && r.results[s] == w.results[s]
    ensures Valid(w) ==> Valid(r) && r.results.Keys == w.results.Keys
  {
    if Complete(w) then w
    else Next(w.(results := w.results[Current(w).stage := Some(info)]))
  }

  /** The workflow after `update_and_next` has been called once per payload, in order. */
  function Drive<S(==), P>(w: Workflow<S, P>, infos: seq<P>): (r: Workflow<S, P>)
    decreases |infos|
  {
    if |infos| == 0 then w else Drive(UpdateAndNext(w, infos[0]), infos[1..])
  }

  /** Validity and the stage list survive any number of `update_and_next` calls. */
  lemma {:induction false} DriveValid<S, P>(w: Workflow<S, P>, infos: seq<P>)
    requires Valid(w)
    ensures Valid(Drive(w, infos)) && Drive(w, infos).stages == w.stages
    decreases |infos|
  {
    if |infos| > 0 {
      DriveValid(UpdateAndNext(w, infos[0]), infos[1..]);
    }
  }

  /** One `update_and_next` in a valid state fills exactly the slot at the index. */
  lemma UpdateAndNextSlot<S, P>(w: Workflow<S, P>, info: P)
    requires Valid(w)
    ensures UpdateAndNext(w, info).idx == if w.idx < |w.stages| then w.idx + 1 else w.idx
    ensures forall j :: 0 <= j < |w.stages| ==>
      UpdateAndNext(w, info).results[w.stages[j]] == if j == w.idx then Some(info) else w.results[w.stages[j]]
  {
    if w.idx < |w.stages| {
      assert Current(w).stage == w.stages[w.idx];
      forall j | 0 <= j < |w.stages| && j != w.idx
        ensures w.stages[j] != Current(w).stage
      {
      }
    }
  }

  /** Where the index stands after `update_and_next` has been called once per payload. */
  lemma {:induction false} DriveIndex<S, P>(w: Workflow<S, P>, infos: seq<P>)
    requires Valid(w)
    ensures Drive(w, infos).idx == if w.idx + |infos| <= |w.stages| then w.idx + |infos| else |w.stages|
    decreases |infos|
  {
    if |infos| > 0 {
      UpdateAndNextSlot(w, infos[0]);
      DriveIndex(UpdateAndNext(w, infos[0]), infos[1..]);
    }
  }

  /**
   Each payload lands in its own stage, in stage order: stages already past
   keep their results, the next |infos| stages receive the payloads in
   order, and the stages beyond stay unset.
   */
  lemma {:induction false} DriveSlot<S, P>(w: Workflow<S, P>, infos: seq<P>, j: nat)
    requires Valid(w)
    requires j < |w.stages|
    ensures Valid(Drive(w, infos)) && Drive(w, infos).stages == w.stages
    ensures Drive(w, infos).results[w.stages[j]] ==
      if j < w.idx then w.results[w.stages[j]]
      else if j < w.idx + |infos| then Some(infos[j - w.idx])
      else None
    decreases |infos|
  {
    DriveValid(w, infos);
    if |infos| > 0 {
      var w' := UpdateAndNext(w, infos[0]);
      UpdateAndNextSlot(w, infos[0]);
      DriveSlot(w', infos[1..], j);
      if w.idx < j < w.idx + |infos| {
        assert infos[1..][j - w'.idx] == infos[j - w.idx];
      }
    }
  }

  /**
   After as many `update_and_next` calls as there are stages, a fresh
   workflow is complete, every stage holds its payload, and one more call
   changes nothing.
   */
  lemma CompletesAfterEveryStage<S, P>(stages: seq<S>, infos: seq<P>, extra: P)
    requires WellFormed(stages)
    requires |infos| == |stages|
    ensures Valid(Drive(Init<S, P>(stages), infos)) && Drive(Init<S, P>(stages), infos).stages == stages
    ensures Complete(Drive(Init<S, P>(stages), infos))
    ensures forall j :: 0 <= j < |stages| ==> Drive(Init<S, P>(stages), infos).results[stages[j]] == Some(infos[j])
    ensures UpdateAndNext(Drive(Init<S, P>(stages), infos), extra) == Drive(Init<S, P>(stages), infos)
  {
    var w := Init<S, P>(stages);
    DriveValid(w, infos);
    DriveIndex(w, infos);
    var d := Drive(w, infos);
    assert d.idx == |stages|;
    assert Current(d) == End;
    assert UpdateAndNext(d, extra) == d;
    forall j | 0 <= j < |stages|
      ensures d.results[stages[j]] == Some(infos[j])
    {
      FilledFromStart(w, infos, j);
    }
  }

  /**
   With fewer payloads than stages a workflow started at the first stage is not complete: it
   stands at the stage after the last one recorded.
   */
  lemma IncompleteBeforeEveryStage<S, P>(w: Workflow<S, P>, infos: seq<P>)
    requires Valid(w) && w.idx == 0
    requires |infos| < |w.stages|
    ensures Current(Drive(w, infos)) == At(w.stages[|infos|])
    ensures !Complete(Drive(w, infos))
  {
    DriveValid(w, infos);
    DriveIndex(w, infos);
  }

  /** Driving a valid workflow at index 0 with one payload per stage puts the j-th payload under the j-th stage. */
  lemma FilledFromStart<S, P>(w: Workflow<S, P>, infos: seq<P>, j: nat)
    requires Valid(w) && w.idx == 0
    requires |infos| == |w.stages| && j < |w.stages|
    ensures Valid(Drive(w, infos)) && Drive(w, infos).stages == w.stages
    ensures Drive(w, infos).results[w.stages[j]] == Some(infos[j])
  {
    DriveSlot(w, infos, j);
    assert infos[j - w.idx] == infos[j];
  }

  /** Once complete, any further calls are no-ops. */
  lemma {:induction false} DriveIdleWhenComplete<S, P>(w: Workflow<S, P>, infos: seq<P>)
    requires Complete(w)
    ensures Drive(w, infos) == w
    decreases |infos|
  {
    if |infos| > 0 {
      DriveIdleWhenComplete(UpdateAndNext(w, infos[0]), infos[1..]);
    }
  }

  /** In a valid state, results are a prefix: a recorded stage has every earlier stage recorded. */
  lemma RecordedPrefix<S, P>(w: Workflow<S, P>, i: nat, j: nat)
    requires Valid(w)
    requires i < j < |w.stages|
    ensures w.results[w.stages[j]].Some? ==> w.results[w.stages[i]].Some?
    ensures w.results[w.stages[i]].None? ==> w.results[w.stages[j]].None?
  {
  }
}
